=== FILE: README.md ===
# Faka community site: ledger, weekly contest, magazine editions

This project models the server of the Faka community site and two pieces
around it, and proves properties of the model.

The server keeps the following tables:
- users, each with a username, a six-digit deposit code (the "fp code") and a balance;
- a ledger of money movements (deposits, withdrawals, entry fees, refunds);
- photo entries in a weekly car contest;
- one vote per voter per week;
- magazine editions, of which one is meant to be published;
- a single settings row holding the entry fee, the deposit webhook's key, the payout URL and the current week.

The other two pieces are:
- the one-off migration that lower-cases stored usernames;
- the browser-side check that admits a user to the staff panel.

Each HTTP handler that can change the store is a pure function from a store (`Store.Db`) and a request
to a `Handled` value. That value holds the reply (`Ok(code, value)` or `Err(code, reason)`) and the store afterwards. The user lookup (`Ledger.GetUser`) only reads, and returns the reply alone.
Missing request fields are `Option`s. What `None` stands for follows the test the source applies:
- fields rejected with `!` on a JSON value (the register username, the deposit amount, code and key,
  the cancel `user_id`, and the vote ids): `None` is a missing or falsy value (`0`, empty text);
- the cancel path id, tested with `isNaN` only: `None` is a non-numeric id, and `0` is `Some(0)`;
- the submit `user_id`, a multipart text field: `None` is a missing or empty field, and the text
  `"0"` is `Some(0)`.

The withdrawal's user id is a plain integer (see Left out).

The settings row is created lazily with the schema's defaults the first time any handler reads it.
The model keeps that side effect: `Settings.Materialize` is the store after such a read.
Several rejections leave the store "unchanged except for the settings row".

The ledger invariant `Store.Inv` has three parts:
- every user's balance equals the net of that user's completed transactions, and every ledger row
  names a user id below the user counter;
- user, entry and edition ids are distinct, and user and entry ids are below their counters
  (transaction and vote ids are not constrained);
- no voter has two votes in one week.

Every handler that writes preserves it: register, deposit, withdraw, entry submit and cancel, vote,
the settings update, and the edition upsert, publish and delete. Any other handler changes at most the
settings row, which the invariant does not read (`Settings.MaterializeKeepsInv`).

Where the code and the behaviour the system is meant to have disagree, the model follows the code:
- a deposit accepts negative amounts (see Findings);
- a cancellation refunds the fee configured at cancellation time, not the fee that was charged;
- a vote is stored without checking that the entry exists or belongs to the week;
- an upsert may publish a second edition.

The staff check reads a `roles` field that the server's user endpoint never sends. Against this
server it therefore never admits anyone (`StaffAccess.ServerNeverGrants`).

Modules:
- `Wrappers`, `Seqs`, `Sorting`, `Text`: `Option`, first-match lookup and filtering, descending insertion sort, lower-casing.
- `Store`: rows, tables, replies, the invariant, and balance arithmetic.
- `Settings`: the settings row.
- `Ledger`: register, user lookup, deposit, withdraw.
- `Contest`: submit, list and cancel entries, and voting.
- `Editions`: list, published, upsert, publish and delete.
- `Migration`: the username migration.
- `StaffAccess`: the staff check.

## Model

| member | source | states |
|---|---|---|
| Settings.GetSiteSettings | server/index.ts:42-48 | returns the stored row when there is one; otherwise returns the defaults and stores them; no other table changes |
| Settings.GetSiteSettingsIdempotent | server/index.ts:42-48 | a second read finds the row the first one created, so reading twice is the same as reading once |
| Settings.ReadSettings | server/index.ts:53-60 | replies 200 with the row, which is stored afterwards, and creates it if missing |
| Settings.UpdateSettings | server/index.ts:63-81 | each field sent replaces the current one and each field left out keeps its value; replies 200 with the stored row; only the settings row changes |
| Settings.EmptyPatchOnlyMaterializes | server/index.ts:63-81 | an update that sends no field leaves the store as a plain read would |
| Settings.MaterializeKeepsInv | server/index.ts:42-48 | creating the settings row keeps the ledger invariant |
| Settings.UpdateKeepsInv | server/index.ts:63-81 | a settings update keeps the ledger invariant |
| Settings.UpdateIdempotent | server/index.ts:63-81 | applying the same update twice gives the same reply and store as applying it once |
| Ledger.Register | server/index.ts:101-135 | a blank name gives 400 and a taken name gives 400, both with the store unchanged; otherwise replies 201 with the code and appends exactly one user with that name, the fresh code and balance 0 |
| Ledger.RegisterKeepsInv | server/index.ts:123-134 | registration keeps the ledger invariant: ids stay distinct and the new user's zero balance matches an empty history |
| Ledger.GetUser | server/index.ts:84-98 | replies 404 exactly when no user has the name; otherwise replies 200 with that user's id, code and balance |
| Ledger.Deposit | server/index.ts:138-179 | a wrong or missing key gives 401; a falsy amount or blank code gives 400; an unknown code gives 404; otherwise replies 200, credits the code's owner with the amount and logs one completed deposit |
| Ledger.DepositKeepsInv | server/index.ts:156-174 | every deposit request keeps balances equal to the net of completed transactions |
| Ledger.DepositAcceptsNegative | server/index.ts:146-148 | a deposit of -5 to a user holding 0 succeeds and leaves the balance at -5 |
| Ledger.DepositChecked | server/index.ts:146-148 | with the positive-amount rule, a deposit succeeds exactly when the key matches, the amount is positive and the code is held; a negative amount gives 400 |
| Ledger.DepositCheckedKeepsNonNegative | server/index.ts:138-179 | with the positive-amount rule, deposits keep every balance non-negative and keep the ledger invariant |
| Ledger.Withdraw | server/index.ts:182-249 | an unknown user, a non-positive amount or an amount above the balance gives 400 with the store unchanged; otherwise one withdraw row with the correlation id is logged; the balance is debited and the reply is 200 with the new balance only when the payout is accepted; a rejection gives 400 and an unreachable service gives 503, both with the row marked failed; apart from the settings row, the balance, the ledger and its counter, nothing changes |
| Ledger.WithdrawIdUnique | server/index.ts:192-203 | with a fresh correlation id, exactly one ledger row carries it afterwards |
| Ledger.WithdrawKeepsInv | server/index.ts:182-249 | every withdraw request keeps the ledger invariant, whatever the payout outcome |
| Ledger.ShippedWithdrawNeverDebits | server/index.ts:214-241 | with the hard-wired failed response, no withdrawal changes a balance and every withdrawal is refused |
| Contest.SubmitEntry | server/index.ts:252-301 | a missing user id or image gives 400 with the store unchanged; an unknown user or a balance below the current fee gives 400 naming the fee, after the settings row is created; otherwise replies 201, debits the fee, logs one completed entry-fee row and appends the entry under the current week |
| Contest.SubmitKeepsInv | server/index.ts:267-296 | a submission keeps the ledger invariant |
| Contest.WeekViewsMembers | server/index.ts:311-329 | a gallery item is listed for a week exactly when it is the view of an entry of that week |
| Contest.ListEntries | server/index.ts:304-332 | replies 200 with the views of the requested week's entries, or of the current week's when none is named, newest first; nothing but the settings row may change |
| Contest.CancelEntry | server/index.ts:335-395 | missing ids give 400, an unknown entry gives 404 and another owner's entry gives 401, all with the store unchanged; the cancellation succeeds with 200 exactly when the requester owns an existing entry whose owner row exists |
| Contest.CancelEffects | server/index.ts:356-390 | after a cancellation the entries and votes left are exactly those not about the entry, the owner is refunded the current fee, and editions and other counters are unchanged |
| Contest.CancelKeepsInv | server/index.ts:335-395 | every cancellation request keeps the ledger invariant |
| Contest.SuccessfulCancelKeepsInv | server/index.ts:356-390 | a successful cancellation keeps ids distinct, balances equal to the ledger's net, and one vote per voter per week |
| Contest.CancelFreshEntry | server/index.ts:335-395 | an entry just appended can be cancelled at once by its owner, which restores the entry table and leaves no vote on it |
| Contest.CancelFreshEntryRefund | server/index.ts:356-390 | cancelling a just-appended entry credits the debited row with the fee current at cancellation |
| Contest.SubmitThenCancelRestores | server/index.ts:252-395 | with the fee unchanged, submitting and then cancelling the new entry restores every balance and the entry table |
| Contest.RefundUsesCurrentFee | server/index.ts:357-384 | if the fee changes from f to g between submission and cancellation, the owner ends up g - f better off than before submitting |
| Contest.CastVote | server/index.ts:398-431 | a missing voter or entry gives 400; a voter who already voted in the target week gives 400; otherwise replies 201 and appends exactly one vote for the named week or the current one |
| Contest.VoteKeepsOneVotePerWeek | server/index.ts:411-427 | no voter ever holds two votes for one week |
| Contest.VoteKeepsInv | server/index.ts:398-431 | voting keeps the ledger invariant |
| Contest.SecondVoteRejected | server/index.ts:411-417 | repeating an accepted vote request is refused with 400 and stores nothing |
| Editions.ListEditions | server/index.ts:436-453 | replies 200 with every edition, each once, ordered by edition number, highest first |
| Editions.PublishedEdition | server/index.ts:456-475 | replies 404 exactly when every edition is a draft; otherwise replies 200 with a published edition from the table |
| Editions.PublishedIsTheOne | server/index.ts:456-475 | when at most one edition is published, the lookup returns that edition |
| Editions.UpsertEdition | server/index.ts:478-508 | a request without id gives 500 and changes nothing; a known id is updated in place keeping its creation time, publication time and, when none is sent, its status; an unknown id is appended as a new row, a draft by default; other rows are kept |
| Editions.UpsertKeepsDistinct | server/index.ts:478-508 | upserting keeps edition ids unique |
| Editions.UpsertKeepsInv | server/index.ts:478-508 | an upsert keeps the ledger invariant |
| Editions.UpsertCanPublishTwo | server/index.ts:478-508 | upserting a new edition with status published next to a published one leaves two published |
| Editions.PublishEdition | server/index.ts:511-529 | an unknown id gives 500 with nothing changed; otherwise every other edition becomes a draft with no publication time and the target becomes published at the given time |
| Editions.PublishKeepsDistinct | server/index.ts:511-529 | publishing renames no edition, so edition ids stay unique |
| Editions.PublishKeepsInv | server/index.ts:511-529 | publishing keeps the ledger invariant |
| Editions.PublishLeavesOnlyIt | server/index.ts:511-529 | after publishing, exactly the target edition is published and the published lookup returns it |
| Editions.PublishSupersedes | server/index.ts:511-529 | publishing b after a returns a to draft with no publication time and makes b the published edition |
| Editions.DeleteEdition | server/index.ts:532-540 | an unknown id gives 500; otherwise replies 200 and removes exactly the rows with that id, and nothing else changes |
| Editions.DeleteKeepsInvariants | server/index.ts:532-540 | deleting keeps edition ids unique and never makes a second edition published |
| Editions.DeleteKeepsInv | server/index.ts:532-540 | deleting an edition keeps the ledger invariant |
| Text.Lower | server/migrate-usernames.ts:10 | replaces each capital, in place, by the small letter that upper-cases back to it, and keeps every other character; the result has no capital, and equals the input exactly when the input had none |
| Text.LowerCharRoundTrip | server/migrate-usernames.ts:10 | lower-casing a capital and upper-casing the result gives the capital back, and the other way round for small letters |
| Migration.RenameById | server/migrate-usernames.ts:22-25 | renames the row with the given id and no other |
| Migration.Migrate | server/migrate-usernames.ts:5-31 | only usernames change; each user of the snapshot, in order, is left alone if already lower-case, skipped exactly when another user holds the lower-case form in the table as it stands at that user's turn, and renamed to the lower-case form otherwise; afterwards every name is lower-case unless skipped; distinct names stay distinct |
| Migration.KeepStep | server/migrate-usernames.ts:11-20 | leaving a user that is already lower-case, or whose lower-case name is taken, keeps the loop's progress invariant |
| Migration.RenameStep | server/migrate-usernames.ts:22-25 | renaming a user to a free lower-case name changes only that user and keeps the loop's progress invariant, including distinct names |
| Migration.KeepTurns | server/migrate-usernames.ts:16-20 | a user left alone at its turn is recorded as skipped exactly when its lower-case form is taken at that turn |
| Migration.RenameTurns | server/migrate-usernames.ts:16-25 | a user renamed at its turn had a free lower-case form, and the decisions recorded for earlier users still hold |
| StaffAccess.AnyGrantsIff | src/pages/staff/layout.tsx:25-33 | the left-to-right scan of the roles answers yes exactly when some role grants access |
| StaffAccess.CheckAuth | src/pages/staff/layout.tsx:11-44 | with no stored name, access is denied without a request; otherwise exactly one lookup is made, and access is granted exactly when it yields a profile with some role that has the magazine permission or a staff name, ignoring case |
| StaffAccess.NoRolesDenied | src/pages/staff/layout.tsx:25-39 | a profile with no roles or an empty role list is denied |
| StaffAccess.ServerNeverGrants | src/lib/api.ts:1-21 | because the user endpoint returns no roles, the check never admits anyone against this server |
| StaffAccess.CapitalisedStaffNameGrants | src/pages/staff/layout.tsx:25-33 | the Russian staff name written in capitals grants access even when its permissions do not decode; a role called "editor" does not |
| Sorting.SortDesc | server/index.ts:311-320 | the result is a permutation of the input, ordered by the key, highest first |

## Left out

- Amounts are integers. The source parses amounts and fees with `parseFloat` and stores floating point values; rounding is not modelled.
- Request parsing is left out: `parseInt` on a non-numeric string (NaN), `Number(...)` on an edition number, and status strings outside draft and published. An absent or unparsable value is an absent `Option`, as set out at the top.
- Random generation of the deposit code and its retry loop are left out. `Ledger.Register` takes the resulting code as a parameter required to be six digits and unused.
- The payout service is not called. Its answer is the parameter `Ledger.PayoutOutcome`, and the correlation id is a parameter. The code as shipped always uses a canned failed response (`Ledger.ShippedPayout`).
- Ledger.Withdraw: the pending withdraw row and its later update are collapsed into one row that already carries the final status. Only the final state is modelled; another request could see the pending row in between.
- The schema's default settings are unknown to the model and are the parameter `defaults`.
- Editions.UpsertEdition: an edition created without a status is assumed to get the draft status as its schema default.
- Ledger.Withdraw: the user id is a plain integer. A missing or non-numeric `user_id` makes the source look up a NaN id outside any error handler, and that path is not modelled.
- The image upload (multer, file names, disk storage) is left out. An entry's image is an opaque string.
- Edition content is left out as JSON. It is an opaque string, and the 500 replies for content that does not parse in list and published are not modelled.
- Database failures are not modelled, so their 500 replies are not reached. This covers a failed transaction in submit, vote and cancel, and a failed settings read or update.
- The model keeps four 500 replies that come from database errors: a cancellation whose owner row is missing, an upsert without an id, publishing an unknown id, and deleting an unknown id.
- Concurrency is left out. Each handler runs alone, so the race between two votes, where both pass the duplicate check, is not modelled.
- Any foreign key from votes to entries or users in the database schema is not part of this model. A vote may name any entry.
- Text.Lower: lower-cases ASCII and the basic Cyrillic capitals (U+0400 to U+042F) only, not the whole Unicode case mapping of `toLowerCase`.
- The IBAN, the payout payload, the admin password check, the user interface, and the local storage itself are left out. The stored name is a parameter of `StaffAccess.CheckAuth`.
- The migration's console output and process exit are left out.
- StaffAccess.CheckAuth: a role's permission text is taken as already decoded. Text that does not decode, or is not an array, is `None`.

## Findings

| source | as written | input that shows it | evidently intended | confidence | as-written member | corrected member |
|---|---|---|---|---|---|---|
| server/index.ts:146-148 | the deposit webhook rejects only a missing or zero amount, so a negative amount is credited as a completed deposit | a correctly keyed deposit of -5 to the code of a user holding 0 leaves that user at -5 | deposits are positive and balances never go below zero | medium, not executed | Ledger.DepositAcceptsNegative | Ledger.DepositCheckedKeepsNonNegative |

=== FILE: contest.dfy ===
/** The weekly contest: submitting, listing and cancelling entries, and voting. */
module Contest {
  import opened Wrappers
  import opened Seqs
  import opened Sorting
  import opened Store
  import opened Settings

  /** The week a request refers to: the one it names, or the current week. */
  function TargetWeek(db: Db, defaults: SiteSettings, week: Option<int>): int {
    week.GetOr(Current(db, defaults).currentWeek)
  }

  /** The store after resolving the week: the settings row is read (and so
      created) only when the request names no week. */
  function AfterWeekRead(db: Db, defaults: SiteSettings, week: Option<int>): Db {
    if week.None? then Materialize(db, defaults) else db
  }

  // ---- submitting ----

  datatype EntryRequest = EntryRequest(userId: Option<int>, image: Option<string>, description: Option<string>)

  /** The submitting user exists and can pay the current entry fee. */
  predicate CanEnter(db: Db, defaults: SiteSettings, uid: int) {
    exists k :: 0 <= k < |db.users| && db.users[k].id == uid
      && db.users[k].balance >= Current(db, defaults).entryFee
      && forall j :: 0 <= j < k ==> db.users[j].id != uid
  }

  /** POST /api/entries: charge the current fee, log it and store the entry
      under the current week, all in one step. `now` is the creation time. */
  function SubmitEntry(db: Db, defaults: SiteSettings, req: EntryRequest, now: int): (r: Handled<()>)
    ensures req.userId.None? || req.image.None? ==> r == Handled(Err(400, MissingUserOrImage), db)
    ensures req.userId.Some? && req.image.Some? && !CanEnter(db, defaults, req.userId.value) ==>
      r == Handled(Err(400, InsufficientBalance(Current(db, defaults).entryFee)), Materialize(db, defaults))
    ensures r.reply.Ok? <==> req.userId.Some? && req.image.Some? && CanEnter(db, defaults, req.userId.value)
    ensures r.reply.Ok? ==>
      var fee := Current(db, defaults).entryFee;
      var uid := req.userId.value;
      && r.reply.code == 201
      && (exists i :: 0 <= i < |db.users| && db.users[i].id == uid && r.db.users == Credit(db.users, i, -fee))
      && r.db.txs == db.txs + [Transaction(db.nextTxId, uid, EntryFeeTx, fee, Completed, None)]
      && r.db.entries == db.entries + [Entry(db.nextEntryId, uid, req.image.value, req.description.GetOr(""),
                                            Current(db, defaults).currentWeek, now)]
      && r.db.votes == db.votes && r.db.editions == db.editions
      && r.db.settings == Materialize(db, defaults).settings
      && r.db.nextTxId == db.nextTxId + 1 && r.db.nextEntryId == db.nextEntryId + 1
      && r.db.nextUserId == db.nextUserId && r.db.nextVoteId == db.nextVoteId
  {
    if req.userId.None? || req.image.None? then Handled(Err(400, MissingUserOrImage), db)
    else
      var found := UserById(db.users, req.userId.value);
      var settings := Current(db, defaults);
      var db1 := Materialize(db, defaults);
      if found.None? || db1.users[found.value].balance < settings.entryFee then
        Handled(Err(400, InsufficientBalance(settings.entryFee)), db1)
      else
        var i := found.value;
        var uid := db1.users[i].id;
        var t := Transaction(db1.nextTxId, uid, EntryFeeTx, settings.entryFee, Completed, None);
        var e := Entry(db1.nextEntryId, uid, req.image.value, req.description.GetOr(""), settings.currentWeek, now);
        Handled(Ok(201, ()), db1.(
          users := Credit(db1.users, i, -settings.entryFee),
          txs := db1.txs + [t],
          entries := db1.entries + [e],
          nextTxId := db1.nextTxId + 1,
          nextEntryId := db1.nextEntryId + 1))
  }

  lemma SubmitKeepsInv(db: Db, defaults: SiteSettings, req: EntryRequest, now: int)
    requires Inv(db)
    ensures Inv(SubmitEntry(db, defaults, req, now).db)
  {
    var r := SubmitEntry(db, defaults, req, now);
    if r.reply.Ok? {
      var i := UserById(db.users, req.userId.value).value;
      var fee := Current(db, defaults).entryFee;
      var t := Transaction(db.nextTxId, db.users[i].id, EntryFeeTx, fee, Completed, None);
      PostKeepsBalanced(db.users, db.txs, i, t);
      var e := r.db.entries[|db.entries|];
      assert r.db.entries == db.entries + [e];
      forall k | 0 <= k < |db.entries| ensures DistinctEntries(db.entries[k], e) {
      }
      PairwiseAppend(db.entries, e, DistinctEntries);
    }
  }

  // ---- listing ----

  /** One gallery item: the entry, its owner's name and how many votes reference it. */
  datatype EntryView = EntryView(
    id: int, image: string, description: string, owner: Option<string>, votesCount: nat, createdAt: int)

  function CreatedAt(v: EntryView): int {
    v.createdAt
  }

  /** Number of votes that reference entry `id`. */
  function VotesFor(votes: seq<Vote>, id: int): nat {
    |Filter(votes, VoteOn(id))|
  }

  function ViewOf(db: Db, e: Entry): EntryView {
    var owner := match UserById(db.users, e.userId)
      case Some(k) => Some(db.users[k].username)
      case None => None;
    EntryView(e.id, e.image, e.description, owner, VotesFor(db.votes, e.id), e.createdAt)
  }

  /** The views of the entries of week `w`, in table order. */
  function WeekViews(db: Db, w: int): seq<EntryView> {
    var es := Filter(db.entries, EntryOfWeek(w));
    seq(|es|, k requires 0 <= k < |es| => ViewOf(db, es[k]))
  }

  /** A view is listed for week `w` exactly when it is the view of an entry of that week. */
  lemma WeekViewsMembers(db: Db, w: int, v: EntryView)
    ensures v in WeekViews(db, w) <==> exists e :: e in db.entries && e.weekNumber == w && v == ViewOf(db, e)
  {
    var es := Filter(db.entries, EntryOfWeek(w));
    var r := WeekViews(db, w);
    if v in r {
      var k :| 0 <= k < |r| && r[k] == v;
      assert es[k] in es;
    }
    if exists e :: e in db.entries && e.weekNumber == w && v == ViewOf(db, e) {
      var e :| e in db.entries && e.weekNumber == w && v == ViewOf(db, e);
      assert e in es;
      var k :| 0 <= k < |es| && es[k] == e;
      assert r[k] == v;
    }
  }

  /** GET /api/entries?week=N: the week's entries, newest first. */
  function ListEntries(db: Db, defaults: SiteSettings, week: Option<int>): (r: Handled<seq<EntryView>>)
    ensures r.db == AfterWeekRead(db, defaults, week)
    ensures r.reply.Ok? && r.reply.code == 200
    ensures SortedDesc(r.reply.value, CreatedAt)
    ensures multiset(r.reply.value) == multiset(WeekViews(db, TargetWeek(db, defaults, week)))
  {
    var (w, db1) := match week
      case Some(n) => (n, db)
      case None => (Current(db, defaults).currentWeek, Materialize(db, defaults));
    // db1 differs from db in the settings row only, which no view reads
    Handled(Ok(200, SortDesc(WeekViews(db, w), CreatedAt)), db1)
  }

  // ---- cancelling ----

  /** The entry exists, belongs to the requester, and its owner's row exists. */
  predicate CanCancel(db: Db, id: int, uid: int) {
    exists k :: 0 <= k < |db.entries| && db.entries[k].id == id && db.entries[k].userId == uid
      && (forall j :: 0 <= j < k ==> db.entries[j].id != id)
      && exists o :: 0 <= o < |db.users| && db.users[o].id == uid
  }

  /** DELETE /api/entries/:id: delete the entry and every vote that references
      it, and refund the owner the CURRENT entry fee, all in one step. */
  function CancelEntry(db: Db, defaults: SiteSettings, entryId: Option<int>, userId: Option<int>): (r: Handled<()>)
    ensures entryId.None? || userId.None? ==> r == Handled(Err(400, MissingEntryOrUser), db)
    ensures entryId.Some? && userId.Some? && EntryById(db.entries, entryId.value).None? ==>
      r == Handled(Err(404, EntryNotFound), db)
    ensures (entryId.Some? && userId.Some? && EntryById(db.entries, entryId.value).Some? &&
             db.entries[EntryById(db.entries, entryId.value).value].userId != userId.value) ==>
      r == Handled(Err(401, NotOwner), db)
    ensures r.reply.Ok? <==> entryId.Some? && userId.Some? && CanCancel(db, entryId.value, userId.value)
    ensures r.reply.Err? ==> r.db == db || r.db == Materialize(db, defaults)
    ensures r.reply.Ok? ==> r.reply.code == 200
  {
    if userId.None? || entryId.None? then Handled(Err(400, MissingEntryOrUser), db)
    else
      var id := entryId.value;
      match EntryById(db.entries, id)
      case None => Handled(Err(404, EntryNotFound), db)
      case Some(k) =>
        var e := db.entries[k];
        if e.userId != userId.value then Handled(Err(401, NotOwner), db)
        else
          var (settings, db1) := GetSiteSettings(db, defaults);
          match UserById(db1.users, e.userId)
          case None => Handled(Err(500, CancelFailed), db1)
          case Some(o) =>
            var t := Transaction(db1.nextTxId, e.userId, RefundTx, settings.entryFee, Completed, None);
            Handled(Ok(200, ()), db1.(
              votes := Filter(db1.votes, VoteNotOn(id)),
              entries := Filter(db1.entries, EntryOtherThan(id)),
              users := Credit(db1.users, o, settings.entryFee),
              txs := db1.txs + [t],
              nextTxId := db1.nextTxId + 1))
  }

  /** The store a successful cancellation leaves, spelled out table by table. */
  lemma CancelShape(db: Db, defaults: SiteSettings, id: int, uid: int)
    requires CancelEntry(db, defaults, Some(id), Some(uid)).reply.Ok?
    ensures var r := CancelEntry(db, defaults, Some(id), Some(uid));
      var o := UserById(db.users, uid).value;
      && o < |db.users| && db.users[o].id == uid
      && r.db == Materialize(db, defaults).(
           votes := Filter(db.votes, VoteNotOn(id)),
           entries := Filter(db.entries, EntryOtherThan(id)),
           users := Credit(db.users, o, Current(db, defaults).entryFee),
           txs := db.txs + [Transaction(db.nextTxId, uid, RefundTx, Current(db, defaults).entryFee, Completed, None)],
           nextTxId := db.nextTxId + 1)
  {
  }

  /** What a successful cancellation does: the entry and every vote on it are
      gone, the owner is refunded the current fee with one completed refund
      row, and nothing else changes. */
  lemma CancelEffects(db: Db, defaults: SiteSettings, id: int, uid: int)
    requires CancelEntry(db, defaults, Some(id), Some(uid)).reply.Ok?
    ensures var r := CancelEntry(db, defaults, Some(id), Some(uid));
      var fee := Current(db, defaults).entryFee;
      && (forall e :: e in r.db.entries <==> e in db.entries && e.id != id)
      && (forall v :: v in r.db.votes <==> v in db.votes && v.entryId != id)
      && (exists o :: 0 <= o < |db.users| && db.users[o].id == uid && r.db.users == Credit(db.users, o, fee))
      && r.db.txs == db.txs + [Transaction(db.nextTxId, uid, RefundTx, fee, Completed, None)]
      && r.db.editions == db.editions && r.db.settings == Materialize(db, defaults).settings
      && r.db.nextTxId == db.nextTxId + 1 && r.db.nextEntryId == db.nextEntryId
      && r.db.nextUserId == db.nextUserId && r.db.nextVoteId == db.nextVoteId
  {
    CancelShape(db, defaults, id, uid);
  }

  lemma CancelKeepsInv(db: Db, defaults: SiteSettings, entryId: Option<int>, userId: Option<int>)
    requires Inv(db)
    ensures Inv(CancelEntry(db, defaults, entryId, userId).db)
  {
    var r := CancelEntry(db, defaults, entryId, userId);
    if r.reply.Ok? {
      SuccessfulCancelKeepsInv(db, defaults, entryId.value, userId.value);
    } else {
      assert r.db == db || r.db == Materialize(db, defaults);
    }
  }

  lemma SuccessfulCancelKeepsInv(db: Db, defaults: SiteSettings, id: int, uid: int)
    requires Inv(db)
    requires CancelEntry(db, defaults, Some(id), Some(uid)).reply.Ok?
    ensures Inv(CancelEntry(db, defaults, Some(id), Some(uid)).db)
  {
    var r := CancelEntry(db, defaults, Some(id), Some(uid));
    CancelShape(db, defaults, id, uid);
    assert Wf(r.db) by {
      var entries := Filter(db.entries, EntryOtherThan(id));
      PairwiseFilter(db.entries, EntryOtherThan(id), DistinctEntries);
      SameKeysDistinct(db.users, r.db.users);
      forall k | 0 <= k < |entries| ensures entries[k].id < db.nextEntryId {
        assert entries[k] in db.entries;
      }
    }
    assert Balanced(r.db) by {
      var o := UserById(db.users, uid).value;
      var t := Transaction(db.nextTxId, uid, RefundTx, Current(db, defaults).entryFee, Completed, None);
      PostKeepsBalanced(db.users, db.txs, o, t);
    }
    assert OneVotePerWeek(r.db.votes) by {
      PairwiseFilter(db.votes, VoteNotOn(id), DifferentSlot);
    }
  }

  // ---- submit, then cancel ----

  /** The store a successful submission leaves, spelled out table by table. */
  lemma SubmitShape(db: Db, defaults: SiteSettings, req: EntryRequest, now: int)
    requires SubmitEntry(db, defaults, req, now).reply.Ok?
    ensures var r := SubmitEntry(db, defaults, req, now);
      var s := Current(db, defaults);
      var i := UserById(db.users, req.userId.value);
      && req.userId.Some? && req.image.Some? && i.Some? && db.users[i.value].id == req.userId.value
      && r.db == db.(
           settings := Some(s),
           users := Credit(db.users, i.value, -s.entryFee),
           txs := db.txs + [Transaction(db.nextTxId, req.userId.value, EntryFeeTx, s.entryFee, Completed, None)],
           entries := db.entries + [Entry(db.nextEntryId, req.userId.value, req.image.value, req.description.GetOr(""), s.currentWeek, now)],
           nextTxId := db.nextTxId + 1,
           nextEntryId := db.nextEntryId + 1)
  {
  }

  /** Cancelling an entry right after it was appended (charged `fee` to row
      `i`) succeeds and leaves the entry table as it was before the append. */
  lemma CancelFreshEntry(db: Db, defaults: SiteSettings, db2: Db, i: nat, e: Entry, t: Transaction, fee: int, s: SiteSettings)
    requires Wf(db)
    requires i < |db.users| && e.id == db.nextEntryId && e.userId == db.users[i].id
    requires db2 == db.(
      settings := Some(s), users := Credit(db.users, i, -fee), txs := db.txs + [t],
      entries := db.entries + [e], nextTxId := db.nextTxId + 1, nextEntryId := db.nextEntryId + 1)
    ensures var r := CancelEntry(db2, defaults, Some(e.id), Some(e.userId));
      && r.reply.Ok?
      && r.db.entries == db.entries
      && (forall k :: 0 <= k < |r.db.votes| ==> r.db.votes[k].entryId != e.id)
  {
    FreshEntryCancellable(db, defaults, db2, i, e, t, fee, s);
    CancelShape(db2, defaults, e.id, e.userId);
    DropFreshEntry(db.entries, e);
    FilterSatisfies(db2.votes, VoteNotOn(e.id));
  }

  /** Filtering out an entry whose id is larger than every stored id removes
      exactly that entry. */
  lemma DropFreshEntry(entries: seq<Entry>, e: Entry)
    requires forall k :: 0 <= k < |entries| ==> entries[k].id < e.id
    ensures Filter(entries + [e], EntryOtherThan(e.id)) == entries
  {
    forall k | 0 <= k < |entries| ensures EntryOtherThan(e.id)(entries[k]) {
    }
    FilterAppend(entries, e, EntryOtherThan(e.id));
    FilterKeepsAll(entries, EntryOtherThan(e.id));
  }

  /** ... and refunds row `i` the fee configured in `s`. */
  lemma CancelFreshEntryRefund(db: Db, defaults: SiteSettings, db2: Db, i: nat, e: Entry, t: Transaction, fee: int, s: SiteSettings)
    requires Wf(db)
    requires i < |db.users| && e.id == db.nextEntryId && e.userId == db.users[i].id
    requires db2 == db.(
      settings := Some(s), users := Credit(db.users, i, -fee), txs := db.txs + [t],
      entries := db.entries + [e], nextTxId := db.nextTxId + 1, nextEntryId := db.nextEntryId + 1)
    ensures CancelEntry(db2, defaults, Some(e.id), Some(e.userId)).db.users == Credit(db.users, i, Current(db2, defaults).entryFee - fee)
  {
    FreshEntryCancellable(db, defaults, db2, i, e, t, fee, s);
    RefundAfterDebit(db2, defaults, e.id, e.userId, i, db.users, fee);
  }

  /** Right after the append, the new entry is the owner's to cancel and the
      owner's row is still found at index `i`. */
  lemma FreshEntryCancellable(db: Db, defaults: SiteSettings, db2: Db, i: nat, e: Entry, t: Transaction, fee: int, s: SiteSettings)
    requires Wf(db)
    requires i < |db.users| && e.id == db.nextEntryId && e.userId == db.users[i].id
    requires db2 == db.(
      settings := Some(s), users := Credit(db.users, i, -fee), txs := db.txs + [t],
      entries := db.entries + [e], nextTxId := db.nextTxId + 1, nextEntryId := db.nextEntryId + 1)
    ensures CanCancel(db2, e.id, e.userId) && UserById(db2.users, e.userId) == Some(i)
    ensures Current(db2, defaults) == s
  {
    assert db2.entries[|db.entries|] == e;
    assert db2.users[i].id == e.userId;
    SameKeysDistinct(db.users, db2.users);
    UserByIdFindsRow(db2.users, i);
  }

  /** A successful cancellation credits the owner's row, found by id, with the
      current fee; when that row was debited `fee` beforehand the two moves net out. */
  lemma RefundAfterDebit(db2: Db, defaults: SiteSettings, id: int, uid: int, i: nat, u0: seq<User>, fee: int)
    requires CanCancel(db2, id, uid) && i < |u0| && db2.users == Credit(u0, i, -fee)
    requires UserById(db2.users, uid) == Some(i)
    ensures CancelEntry(db2, defaults, Some(id), Some(uid)).db.users == Credit(u0, i, Current(db2, defaults).entryFee - fee)
  {
    DebitThenCredit(u0, db2.users, i, fee, Current(db2, defaults).entryFee);
    CancelShape(db2, defaults, id, uid);
  }

  /** A successful submission, in the shape the fresh-entry lemmas take. */
  lemma SubmittedParts(db: Db, defaults: SiteSettings, req: EntryRequest, now: int, db2: Db) returns (i: nat, e: Entry, t: Transaction)
    requires Inv(db)
    requires SubmitEntry(db, defaults, req, now).reply.Ok?
    requires db2.settings.Some? && db2 == SubmitEntry(db, defaults, req, now).db.(settings := db2.settings)
    ensures req.userId.Some? && UserById(db.users, req.userId.value) == Some(i)
    ensures Wf(db) && i < |db.users| && e.id == db.nextEntryId && e.userId == db.users[i].id && e.userId == req.userId.value
    ensures db2 == db.(
      settings := Some(db2.settings.value), users := Credit(db.users, i, -Current(db, defaults).entryFee), txs := db.txs + [t],
      entries := db.entries + [e], nextTxId := db.nextTxId + 1, nextEntryId := db.nextEntryId + 1)
  {
    SubmitShape(db, defaults, req, now);
    var cur := Current(db, defaults);
    var uid := req.userId.value;
    i := UserById(db.users, uid).value;
    e := Entry(db.nextEntryId, uid, req.image.value, req.description.GetOr(""), cur.currentWeek, now);
    t := Transaction(db.nextTxId, uid, EntryFeeTx, cur.entryFee, Completed, None);
  }

  /** With the fee unchanged, submitting and then cancelling gives the owner
      back exactly the balance held before, and leaves the entry table as it was. */
  lemma SubmitThenCancelRestores(db: Db, defaults: SiteSettings, req: EntryRequest, now: int)
    requires Inv(db)
    requires SubmitEntry(db, defaults, req, now).reply.Ok?
    ensures var db1 := SubmitEntry(db, defaults, req, now).db;
      var r := CancelEntry(db1, defaults, Some(db.nextEntryId), req.userId);
      && r.reply.Ok?
      && r.db.users == db.users
      && r.db.entries == db.entries
      && (forall k :: 0 <= k < |r.db.votes| ==> r.db.votes[k].entryId != db.nextEntryId)
  {
    var db1 := SubmitEntry(db, defaults, req, now).db;
    var i, e, t := SubmittedParts(db, defaults, req, now, db1);
    var fee := Current(db, defaults).entryFee;
    CancelFreshEntry(db, defaults, db1, i, e, t, fee, db1.settings.value);
    CancelFreshEntryRefund(db, defaults, db1, i, e, t, fee, db1.settings.value);
    CreditZero(db.users, i, Current(db1, defaults).entryFee - fee);
  }

  /** The refund is the fee configured at cancellation time, not the fee that
      was charged: after the fee changes from f to g in between, the owner ends
      up g - f better off than before submitting. */
  lemma RefundUsesCurrentFee(db: Db, defaults: SiteSettings, req: EntryRequest, now: int, newFee: int)
    requires Inv(db)
    requires SubmitEntry(db, defaults, req, now).reply.Ok?
    ensures req.userId.Some?
    ensures var db1 := SubmitEntry(db, defaults, req, now).db;
      var db2 := UpdateSettings(db1, defaults, SettingsPatch(Some(newFee), None, None, None)).db;
      var r := CancelEntry(db2, defaults, Some(db.nextEntryId), req.userId);
      var i := UserById(db.users, req.userId.value);
      && r.reply.Ok?
      && i.Some?
      && r.db.users[i.value].balance == db.users[i.value].balance - Current(db, defaults).entryFee + newFee
  {
    var db1 := SubmitEntry(db, defaults, req, now).db;
    var db2 := UpdateSettings(db1, defaults, SettingsPatch(Some(newFee), None, None, None)).db;
    assert db2.settings.Some? && db2 == db1.(settings := db2.settings);
    var i, e, t := SubmittedParts(db, defaults, req, now, db2);
    var fee := Current(db, defaults).entryFee;
    CancelFreshEntry(db, defaults, db2, i, e, t, fee, db2.settings.value);
    CancelFreshEntryRefund(db, defaults, db2, i, e, t, fee, db2.settings.value);
    assert Current(db2, defaults).entryFee == newFee;
  }

  // ---- voting ----

  datatype VoteRequest = VoteRequest(voterId: Option<int>, entryId: Option<int>, week: Option<int>)

  predicate HasVoted(votes: seq<Vote>, voter: int, week: int) {
    exists k :: 0 <= k < |votes| && votes[k].voterId == voter && votes[k].weekNumber == week
  }

  /** POST /api/vote: one vote per voter per week. The entry is neither looked
      up nor checked against the week. Replies with the stored vote. */
  function CastVote(db: Db, defaults: SiteSettings, req: VoteRequest): (r: Handled<Vote>)
    ensures req.voterId.None? || req.entryId.None? ==> r == Handled(Err(400, MissingVoterOrEntry), db)
    ensures req.voterId.Some? && req.entryId.Some? && HasVoted(db.votes, req.voterId.value, TargetWeek(db, defaults, req.week)) ==>
      r == Handled(Err(400, AlreadyVoted), AfterWeekRead(db, defaults, req.week))
    ensures r.reply.Ok? <==>
      req.voterId.Some? && req.entryId.Some? && !HasVoted(db.votes, req.voterId.value, TargetWeek(db, defaults, req.week))
    ensures r.reply.Ok? ==>
      && r.reply.code == 201
      && r.reply.value == Vote(db.nextVoteId, req.voterId.value, req.entryId.value, TargetWeek(db, defaults, req.week))
      && r.db.votes == db.votes + [r.reply.value]
      && r.db == AfterWeekRead(db, defaults, req.week).(votes := r.db.votes, nextVoteId := db.nextVoteId + 1)
  {
    if req.voterId.None? || req.entryId.None? then Handled(Err(400, MissingVoterOrEntry), db)
    else
      var (w, db1) := match req.week
        case Some(n) => (n, db)
        case None => (Current(db, defaults).currentWeek, Materialize(db, defaults));
      var voter := req.voterId.value;
      if First(db1.votes, VoteInSlot(voter, w)).Some? then
        Handled(Err(400, AlreadyVoted), db1)
      else
        var v := Vote(db1.nextVoteId, voter, req.entryId.value, w);
        Handled(Ok(201, v), db1.(votes := db1.votes + [v], nextVoteId := db1.nextVoteId + 1))
  }

  /** Every vote request keeps "at most one vote per (voter, week)". */
  lemma VoteKeepsOneVotePerWeek(db: Db, defaults: SiteSettings, req: VoteRequest)
    requires OneVotePerWeek(db.votes)
    ensures OneVotePerWeek(CastVote(db, defaults, req).db.votes)
  {
    var r := CastVote(db, defaults, req);
    if r.reply.Ok? {
      var v := r.reply.value;
      forall k | 0 <= k < |db.votes| ensures DifferentSlot(db.votes[k], v) {
      }
      PairwiseAppend(db.votes, v, DifferentSlot);
    }
  }

  lemma VoteKeepsInv(db: Db, defaults: SiteSettings, req: VoteRequest)
    requires Inv(db)
    ensures Inv(CastVote(db, defaults, req).db)
  {
    VoteKeepsOneVotePerWeek(db, defaults, req);
  }

  /** Repeating an accepted vote request is refused and stores nothing. */
  lemma SecondVoteRejected(db: Db, defaults: SiteSettings, req: VoteRequest)
    requires CastVote(db, defaults, req).reply.Ok?
    ensures var db1 := CastVote(db, defaults, req).db;
            CastVote(db1, defaults, req) == Handled(Err(400, AlreadyVoted), db1)
  {
    var db1 := CastVote(db, defaults, req).db;
    assert TargetWeek(db1, defaults, req.week) == TargetWeek(db, defaults, req.week);
    assert db1.votes[|db.votes|] == CastVote(db, defaults, req).reply.value;
  }
}

=== FILE: editions.dfy ===
/** The magazine editions: listing, the published lookup, upsert, publish and
    delete. Publishing is the only operation that maintains "one edition is
    published"; upsert and delete do not enforce it. */
module Editions {
  import opened Wrappers
  import opened Seqs
  import opened Sorting
  import opened Store

  function EditionNumber(e: Edition): int {
    e.editionNumber
  }

  function PublishedEd(): Edition -> bool {
    (e: Edition) => e.status == Published
  }

  /** GET /api/editions: every edition, highest edition number first. The
      content is spread into each item as decoded JSON, which is not modelled. */
  function ListEditions(db: Db): (r: Handled<seq<Edition>>)
    ensures r.db == db && r.reply.Ok? && r.reply.code == 200
    ensures SortedDesc(r.reply.value, EditionNumber)
    ensures multiset(r.reply.value) == multiset(db.editions)
  {
    Handled(Ok(200, SortDesc(db.editions, EditionNumber)), db)
  }

  /** GET /api/editions/published: the first edition whose status is published. */
  function PublishedEdition(db: Db): (r: Handled<Edition>)
    ensures r.db == db
    ensures r.reply.Err? <==> forall k :: 0 <= k < |db.editions| ==> db.editions[k].status == Draft
    ensures r.reply.Err? ==> r.reply == Err(404, NoPublishedEdition)
    ensures r.reply.Ok? ==> r.reply.code == 200 && r.reply.value in db.editions && r.reply.value.status == Published
  {
    match First(db.editions, PublishedEd())
    case None => Handled(Err(404, NoPublishedEdition), db)
    case Some(k) => Handled(Ok(200, db.editions[k]), db)
  }

  /** With at most one published edition, the lookup finds exactly that one. */
  lemma PublishedIsTheOne(db: Db, k: nat)
    requires AtMostOnePublished(db.editions)
    requires k < |db.editions| && db.editions[k].status == Published
    ensures PublishedEdition(db).reply == Ok(200, db.editions[k])
  {
  }

  /** The body of an upsert: the edition fields taken from the request, with
      the rest of the body as its serialised content. */
  datatype EditionInput = EditionInput(
    id: Option<string>, editionNumber: int, status: Option<EditionStatus>, content: string)

  /** The row an upsert leaves for the request's id: an existing row keeps its
      id, creation and publication times and keeps its status when none is
      sent; a new row is a draft unless a status is sent, created at `now`. */
  function Upserted(prev: Option<Edition>, input: EditionInput, now: int): Edition
    requires input.id.Some?
  {
    match prev
    case Some(e) => e.(editionNumber := input.editionNumber, status := input.status.GetOr(e.status), content := input.content)
    case None => Edition(input.id.value, input.editionNumber, input.status.GetOr(Draft), input.content, now, None)
  }

  /** POST /api/editions: overwrite the edition with the given id, or create it. */
  function UpsertEdition(db: Db, input: EditionInput, now: int): (r: Handled<Edition>)
    ensures input.id.None? ==> r == Handled(Err(500, SaveFailed), db)
    ensures input.id.Some? ==>
      var id := input.id.value;
      && r.reply.Ok? && r.reply.code == 200
      && r.db == db.(editions := r.db.editions)
      && r.reply.value.id == id
      && r.reply.value.editionNumber == input.editionNumber
      && r.reply.value.content == input.content
      && (input.status.Some? ==> r.reply.value.status == input.status.value)
      && r.reply.value in r.db.editions
      && (forall e :: e in r.db.editions && e.id != id ==> e in db.editions)
      && (forall e :: e in db.editions && e.id != id ==> e in r.db.editions)
    ensures input.id.Some? && EditionById(db.editions, input.id.value).Some? ==>
      var k := EditionById(db.editions, input.id.value).value;
      && r.db.editions == db.editions[k := r.reply.value]
      && r.reply.value.createdAt == db.editions[k].createdAt
      && r.reply.value.publishedAt == db.editions[k].publishedAt
      && (input.status.None? ==> r.reply.value.status == db.editions[k].status)
    ensures input.id.Some? && EditionById(db.editions, input.id.value).None? ==>
      && r.db.editions == db.editions + [r.reply.value]
      && r.reply.value.createdAt == now && r.reply.value.publishedAt.None?
      && (input.status.None? ==> r.reply.value.status == Draft)
  {
    if input.id.None? then Handled(Err(500, SaveFailed), db)
    else
      match EditionById(db.editions, input.id.value)
      case Some(k) =>
        var e := Upserted(Some(db.editions[k]), input, now);
        UpdateMembers(db.editions, k, e);
        Handled(Ok(200, e), db.(editions := db.editions[k := e]))
      case None =>
        var e := Upserted(None, input, now);
        Handled(Ok(200, e), db.(editions := db.editions + [e]))
  }

  /** Upsert keeps edition ids unique. */
  lemma UpsertKeepsDistinct(db: Db, input: EditionInput, now: int)
    requires Pairwise(db.editions, DistinctEditions)
    ensures Pairwise(UpsertEdition(db, input, now).db.editions, DistinctEditions)
  {
    if input.id.Some? {
      var r := UpsertEdition(db, input, now);
      match EditionById(db.editions, input.id.value)
      case Some(k) =>
        forall i, j | 0 <= i < j < |r.db.editions| ensures DistinctEditions(r.db.editions[i], r.db.editions[j]) {
          assert DistinctEditions(db.editions[i], db.editions[j]);
        }
      case None =>
        PairwiseAppend(db.editions, r.reply.value, DistinctEditions);
    }
  }

  /** Upsert does not enforce the single published edition: saving a second
      edition as published next to a published one leaves two published. */
  lemma UpsertCanPublishTwo()
    ensures var a := Edition("a", 1, Published, "", 0, Some(0));
      var db := Db(None, [], [], [], [], [a], 1, 1, 1, 1);
      var r := UpsertEdition(db, EditionInput(Some("b"), 2, Some(Published), ""), 5);
      && AtMostOnePublished(db.editions)
      && r.reply.Ok?
      && !AtMostOnePublished(r.db.editions)
  {
    var a := Edition("a", 1, Published, "", 0, Some(0));
    var db := Db(None, [], [], [], [], [a], 1, 1, 1, 1);
    var r := UpsertEdition(db, EditionInput(Some("b"), 2, Some(Published), ""), 5);
    assert EditionById(db.editions, "b").None? by {
      assert !EditionWithId("b")(db.editions[0]);
    }
    assert !NotBothPublished(r.db.editions[0], r.db.editions[1]);
  }

  /** The row `e` after publishing `id` at `now`. */
  function Republished(e: Edition, id: string, now: int): Edition {
    if e.id == id then e.(status := Published, publishedAt := Some(now))
    else e.(status := Draft, publishedAt := None)
  }

  /** POST /api/editions/:id/publish, one database transaction: every other
      edition becomes a draft with no publication time, then the edition itself
      is published at `now`. When the edition does not exist the second update
      fails and the whole transaction is rolled back. */
  function PublishEdition(db: Db, id: string, now: int): (r: Handled<bool>)
    ensures EditionById(db.editions, id).None? ==> r == Handled(Err(500, PublishFailed), db)
    ensures EditionById(db.editions, id).Some? ==>
      && r.reply == Ok(200, true)
      && r.db == db.(editions := r.db.editions)
      && |r.db.editions| == |db.editions|
      && forall k :: 0 <= k < |db.editions| ==>
           var (e, e') := (db.editions[k], r.db.editions[k]);
           && e'.id == e.id && e'.editionNumber == e.editionNumber
           && e'.content == e.content && e'.createdAt == e.createdAt
           && (e.id == id ==> e'.status == Published && e'.publishedAt == Some(now))
           && (e.id != id ==> e'.status == Draft && e'.publishedAt.None?)
  {
    if EditionById(db.editions, id).None? then Handled(Err(500, PublishFailed), db)
    else
      var eds := seq(|db.editions|, k requires 0 <= k < |db.editions| => Republished(db.editions[k], id, now));
      Handled(Ok(200, true), db.(editions := eds))
  }

  /** After a successful publish with unique ids, the edition is the only
      published one and the published lookup returns it. */
  lemma PublishLeavesOnlyIt(db: Db, id: string, now: int)
    requires Pairwise(db.editions, DistinctEditions)
    requires EditionById(db.editions, id).Some?
    ensures var r := PublishEdition(db, id, now);
      var k := EditionById(db.editions, id).value;
      && AtMostOnePublished(r.db.editions)
      && r.db.editions[k].status == Published
      && (forall j :: 0 <= j < |r.db.editions| && r.db.editions[j].status == Published ==> r.db.editions[j].id == id)
      && PublishedEdition(r.db).reply == Ok(200, r.db.editions[k])
  {
    var r := PublishEdition(db, id, now);
    var k := EditionById(db.editions, id).value;
    forall i, j | 0 <= i < j < |r.db.editions| ensures NotBothPublished(r.db.editions[i], r.db.editions[j]) {
      assert DistinctEditions(db.editions[i], db.editions[j]);
    }
    PublishedIsTheOne(r.db, k);
  }

  /** Publishing renames no edition, so ids stay unique. */
  lemma PublishKeepsDistinct(db: Db, id: string, now: int)
    requires Pairwise(db.editions, DistinctEditions)
    ensures Pairwise(PublishEdition(db, id, now).db.editions, DistinctEditions)
  {
    var eds := PublishEdition(db, id, now).db.editions;
    forall i, j | 0 <= i < j < |eds| ensures DistinctEditions(eds[i], eds[j]) {
      assert DistinctEditions(db.editions[i], db.editions[j]);
    }
  }

  /** Publishing `b` after `a` leaves `a` a draft with no publication time. */
  lemma PublishSupersedes(db: Db, a: string, b: string, t1: int, t2: int)
    requires Pairwise(db.editions, DistinctEditions)
    requires a != b && EditionById(db.editions, a).Some? && EditionById(db.editions, b).Some?
    ensures var db1 := PublishEdition(db, a, t1).db;
      var r := PublishEdition(db1, b, t2);
      var ka := EditionById(db.editions, a).value;
      && r.reply.Ok?
      && r.db.editions[ka].status == Draft && r.db.editions[ka].publishedAt.None?
      && PublishedEdition(r.db).reply == Ok(200, r.db.editions[EditionById(db.editions, b).value])
  {
    var db1 := PublishEdition(db, a, t1).db;
    var kb := EditionById(db.editions, b).value;
    FirstAgrees(db.editions, db1.editions, EditionWithId(b));
    assert Pairwise(db1.editions, DistinctEditions) by {
      forall i, j | 0 <= i < j < |db1.editions| ensures DistinctEditions(db1.editions[i], db1.editions[j]) {
        assert DistinctEditions(db.editions[i], db.editions[j]);
      }
    }
    PublishLeavesOnlyIt(db1, b, t2);
  }

  /** DELETE /api/editions/:id: remove the edition; an unknown id fails. */
  function DeleteEdition(db: Db, id: string): (r: Handled<bool>)
    ensures EditionById(db.editions, id).None? <==> r.reply.Err?
    ensures r.reply.Err? ==> r == Handled(Err(500, DeleteFailed), db)
    ensures r.reply.Ok? ==>
      && r.reply == Ok(200, true)
      && r.db == db.(editions := r.db.editions)
      && |r.db.editions| < |db.editions|
      && forall e :: e in r.db.editions <==> e in db.editions && e.id != id
  {
    if EditionById(db.editions, id).None? then Handled(Err(500, DeleteFailed), db)
    else
      var k := EditionById(db.editions, id).value;
      var rest := Filter(db.editions, EditionOtherThan(id));
      assert db.editions[k] !in rest;
      FilterShorter(db.editions, EditionOtherThan(id), k);
      Handled(Ok(200, true), db.(editions := rest))
  }

  /** Deleting keeps ids unique and never adds a published edition. */
  lemma DeleteKeepsInvariants(db: Db, id: string)
    ensures var eds := DeleteEdition(db, id).db.editions;
      && (Pairwise(db.editions, DistinctEditions) ==> Pairwise(eds, DistinctEditions))
      && (AtMostOnePublished(db.editions) ==> AtMostOnePublished(eds))
  {
    if EditionById(db.editions, id).Some? {
      if Pairwise(db.editions, DistinctEditions) {
        PairwiseFilter(db.editions, EditionOtherThan(id), DistinctEditions);
      }
      if AtMostOnePublished(db.editions) {
        PairwiseFilter(db.editions, EditionOtherThan(id), NotBothPublished);
      }
    }
  }

  /** A store that differs only in an edition table with unique ids still
      satisfies the ledger invariant. */
  lemma EditionsOnlyKeepInv(db: Db, db': Db)
    requires Inv(db) && db' == db.(editions := db'.editions)
    requires Pairwise(db'.editions, DistinctEditions)
    ensures Inv(db')
  {
  }

  /** Each edition handler keeps the ledger invariant. */
  lemma UpsertKeepsInv(db: Db, input: EditionInput, now: int)
    requires Inv(db)
    ensures Inv(UpsertEdition(db, input, now).db)
  {
    UpsertKeepsDistinct(db, input, now);
    EditionsOnlyKeepInv(db, UpsertEdition(db, input, now).db);
  }

  lemma PublishKeepsInv(db: Db, id: string, now: int)
    requires Inv(db)
    ensures Inv(PublishEdition(db, id, now).db)
  {
    PublishKeepsDistinct(db, id, now);
    EditionsOnlyKeepInv(db, PublishEdition(db, id, now).db);
  }

  lemma DeleteKeepsInv(db: Db, id: string)
    requires Inv(db)
    ensures Inv(DeleteEdition(db, id).db)
  {
    DeleteKeepsInvariants(db, id);
    EditionsOnlyKeepInv(db, DeleteEdition(db, id).db);
  }
}

=== FILE: ledger.dfy ===
/** Accounts and money movements: registration, profile lookup, the deposit
    webhook and the withdrawal flow. */
module Ledger {
  import opened Wrappers
  import opened Seqs
  import opened Store
  import opened Settings

  // ---- registration ----

  /** A deposit code: six decimal digits. */
  predicate IsFpCode(code: string) {
    |code| == 6 && forall k :: 0 <= k < |code| ==> '0' <= code[k] <= '9'
  }

  predicate CodeInUse(users: seq<User>, code: string) {
    exists k :: 0 <= k < |users| && users[k].fpCode == code
  }

  predicate NameInUse(users: seq<User>, name: string) {
    exists k :: 0 <= k < |users| && users[k].username == name
  }

  /** POST /api/register. `code` is the outcome of the random code search: six
      digits held by no user. Replies with the new deposit code. */
  function Register(db: Db, username: Option<string>, code: string): (r: Handled<string>)
    requires IsFpCode(code) && !CodeInUse(db.users, code)
    ensures Blank(username) ==> r == Handled(Err(400, UsernameRequired), db)
    ensures !Blank(username) && NameInUse(db.users, username.value) ==> r == Handled(Err(400, UsernameTaken), db)
    ensures r.reply.Ok? <==> !Blank(username) && !NameInUse(db.users, username.value)
    ensures r.reply.Ok? ==>
      && r.reply == Ok(201, code)
      && |r.db.users| == |db.users| + 1
      && r.db.users[..|db.users|] == db.users
      && r.db.users[|db.users|] == User(db.nextUserId, username.value, code, 0)
      && (forall k :: 0 <= k < |db.users| ==> r.db.users[k].fpCode != code && r.db.users[k].username != username.value)
      && r.db == db.(users := r.db.users, nextUserId := db.nextUserId + 1)
  {
    if Blank(username) then Handled(Err(400, UsernameRequired), db)
    else if UserByName(db.users, username.value).Some? then Handled(Err(400, UsernameTaken), db)
    else
      var user := User(db.nextUserId, username.value, code, 0);
      Handled(Ok(201, code), db.(users := db.users + [user], nextUserId := db.nextUserId + 1))
  }

  lemma RegisterKeepsInv(db: Db, username: Option<string>, code: string)
    requires Inv(db)
    requires IsFpCode(code) && !CodeInUse(db.users, code)
    ensures Inv(Register(db, username, code).db)
  {
    var r := Register(db, username, code);
    if r.reply.Ok? {
      var u := User(db.nextUserId, username.value, code, 0);
      assert r.db.users == db.users + [u];
      forall k | 0 <= k < |db.users| ensures DistinctUsers(db.users[k], u) {
        assert db.users[k].id < db.nextUserId;
      }
      PairwiseAppend(db.users, u, DistinctUsers);
      NetOfStranger(db.txs, u.id);
      assert BalancedRows(r.db.users, r.db.txs) by {
        forall k | 0 <= k < |r.db.users| ensures r.db.users[k].balance == Net(r.db.txs, r.db.users[k].id) {
          if k < |db.users| {
            assert r.db.users[k] == db.users[k];
          }
        }
      }
    }
  }

  // ---- profile lookup ----

  /** What GET /api/user/:username returns; it carries no roles. */
  datatype Profile = Profile(id: int, username: string, fpCode: string, balance: int)

  /** GET /api/user/:username. */
  function GetUser(db: Db, username: string): (r: Reply<Profile>)
    ensures r.Err? <==> !NameInUse(db.users, username)
    ensures r.Err? ==> r == Err(404, UserNotFound)
    ensures r.Ok? ==> r.code == 200 && r.value.username == username
    ensures r.Ok? ==> exists k :: 0 <= k < |db.users| && db.users[k] == User(r.value.id, username, r.value.fpCode, r.value.balance)
  {
    match UserByName(db.users, username)
    case None => Err(404, UserNotFound)
    case Some(k) =>
      var u := db.users[k];
      Ok(200, Profile(u.id, u.username, u.fpCode, u.balance))
  }

  // ---- deposit webhook ----

  datatype DepositRequest = DepositRequest(amount: Option<int>, code: Option<string>, apiKey: Option<string>)

  /** The request presents the configured shared secret. */
  predicate KeyMatches(db: Db, defaults: SiteSettings, req: DepositRequest) {
    !Blank(req.apiKey) && req.apiKey.value == Current(db, defaults).apiKey
  }

  /** POST /api/deposit. Any non-zero amount is accepted, negative ones included. */
  function Deposit(db: Db, defaults: SiteSettings, req: DepositRequest): (r: Handled<()>)
    ensures !KeyMatches(db, defaults, req) ==> r == Handled(Err(401, Unauthorized), Materialize(db, defaults))
    ensures KeyMatches(db, defaults, req) && (Falsy(req.amount) || Blank(req.code)) ==>
      r == Handled(Err(400, MissingAmountOrCode), Materialize(db, defaults))
    ensures KeyMatches(db, defaults, req) && !Falsy(req.amount) && !Blank(req.code) && !CodeInUse(db.users, req.code.value) ==>
      r == Handled(Err(404, UnknownCode), Materialize(db, defaults))
    ensures r.reply.Ok? <==>
      KeyMatches(db, defaults, req) && !Falsy(req.amount) && !Blank(req.code) && CodeInUse(db.users, req.code.value)
    ensures r.reply.Ok? ==>
      && r.reply.code == 200
      && (exists i :: 0 <= i < |db.users| && db.users[i].fpCode == req.code.value
            && r.db.users == Credit(db.users, i, req.amount.value)
            && r.db.txs == db.txs + [Transaction(db.nextTxId, db.users[i].id, DepositTx, req.amount.value, Completed, None)])
      && r.db == Materialize(db, defaults).(users := r.db.users, txs := r.db.txs, nextTxId := db.nextTxId + 1)
  {
    var (settings, db1) := GetSiteSettings(db, defaults);
    if Blank(req.apiKey) || req.apiKey.value != settings.apiKey then Handled(Err(401, Unauthorized), db1)
    else if Falsy(req.amount) || Blank(req.code) then Handled(Err(400, MissingAmountOrCode), db1)
    else match UserByCode(db1.users, req.code.value)
      case None => Handled(Err(404, UnknownCode), db1)
      case Some(i) =>
        var amount := req.amount.value;
        var t := Transaction(db1.nextTxId, db1.users[i].id, DepositTx, amount, Completed, None);
        Handled(Ok(200, ()), db1.(users := Credit(db1.users, i, amount), txs := db1.txs + [t], nextTxId := db1.nextTxId + 1))
  }

  lemma DepositKeepsInv(db: Db, defaults: SiteSettings, req: DepositRequest)
    requires Inv(db)
    ensures Inv(Deposit(db, defaults, req).db)
  {
    var r := Deposit(db, defaults, req);
    if r.reply.Ok? {
      var i := UserByCode(db.users, req.code.value).value;
      var t := Transaction(db.nextTxId, db.users[i].id, DepositTx, req.amount.value, Completed, None);
      PostKeepsBalanced(db.users, db.txs, i, t);
    }
  }

  /** Deposit as written takes a negative amount: a user holding nothing who
      is sent -5 ends up owing 5, with a completed deposit row of -5. */
  lemma DepositAcceptsNegative()
    ensures var db := Db(Some(SiteSettings(1000, "k", "", 1)), [User(1, "a", "123456", 0)], [], [], [], [], 2, 1, 1, 1);
      var r := Deposit(db, db.settings.value, DepositRequest(Some(-5), Some("123456"), Some("k")));
      && r.reply.Ok?
      && r.db.users[0].balance == -5
  {
    var db := Db(Some(SiteSettings(1000, "k", "", 1)), [User(1, "a", "123456", 0)], [], [], [], [], 2, 1, 1, 1);
    assert UserWithCode("123456")(db.users[0]);
  }

  /** No balance is negative. */
  ghost predicate NonNegative(users: seq<User>) {
    forall k :: 0 <= k < |users| ==> users[k].balance >= 0
  }

  /** Deposit with the rule that deposits are positive amounts: after the key
      check, a negative amount is refused with 400 and nothing but the settings
      read happens; otherwise it is the deposit as written. */
  function DepositChecked(db: Db, defaults: SiteSettings, req: DepositRequest): (r: Handled<()>)
    ensures r.reply.Ok? <==>
      KeyMatches(db, defaults, req) && req.amount.Some? && req.amount.value > 0 && !Blank(req.code) && CodeInUse(db.users, req.code.value)
    ensures req.amount.Some? && req.amount.value < 0 && KeyMatches(db, defaults, req) ==>
      r == Handled(Err(400, InvalidAmount), Materialize(db, defaults))
    ensures req.amount.None? || req.amount.value >= 0 ==> r == Deposit(db, defaults, req)
  {
    if KeyMatches(db, defaults, req) && req.amount.Some? && req.amount.value < 0 then
      Handled(Err(400, InvalidAmount), Materialize(db, defaults))
    else Deposit(db, defaults, req)
  }

  /** With the positive-amount rule, deposits keep every balance non-negative
      and keep the ledger invariant. */
  lemma DepositCheckedKeepsNonNegative(db: Db, defaults: SiteSettings, req: DepositRequest)
    requires Inv(db) && NonNegative(db.users)
    ensures Inv(DepositChecked(db, defaults, req).db)
    ensures NonNegative(DepositChecked(db, defaults, req).db.users)
  {
    DepositKeepsInv(db, defaults, req);
  }

  // ---- withdrawal ----

  /** What the payout service's answer turns out to be. */
  datatype PayoutOutcome = Accepted | Rejected | Unreachable

  /** The handler as shipped never calls the service: it takes a canned
      `{ ok: false, status: 503 }` response, which reads as a rejection. */
  const ShippedPayout: PayoutOutcome := Rejected

  datatype WithdrawRequest = WithdrawRequest(userId: int, amount: Option<int>)

  /** The amount the handler works with; an absent amount reads as zero. */
  function RequestedAmount(req: WithdrawRequest): int {
    req.amount.GetOr(0)
  }

  /** The request passes validation: the user exists and 0 < amount <= balance. */
  predicate CanWithdraw(db: Db, req: WithdrawRequest) {
    exists k :: 0 <= k < |db.users| && db.users[k].id == req.userId
      && 0 < RequestedAmount(req) <= db.users[k].balance
      && forall j :: 0 <= j < k ==> db.users[j].id != req.userId
  }

  /** POST /api/frontend/withdraw, with the payout call's outcome as a parameter
      and `withdrawId` the correlation id drawn for it. A pending withdraw row is
      written first; it then becomes completed (and the balance is debited) only
      when the payout is accepted, and failed otherwise. Replies with the new balance. */
  function Withdraw(db: Db, defaults: SiteSettings, req: WithdrawRequest, withdrawId: string, payout: PayoutOutcome): (r: Handled<int>)
    ensures !CanWithdraw(db, req) ==> r == Handled(Err(400, InsufficientFundsOrInvalidUser), db)
    ensures CanWithdraw(db, req) ==>
      && |r.db.txs| == |db.txs| + 1
      && r.db.txs[..|db.txs|] == db.txs
      && var t := r.db.txs[|db.txs|];
      && t.id == db.nextTxId && t.userId == req.userId && t.txType == WithdrawTx
      && t.amount == RequestedAmount(req) && t.externalId == Some(withdrawId)
      && (t.status == Completed <==> payout == Accepted)
      && (t.status == Failed <==> payout != Accepted)
      && r.db == Materialize(db, defaults).(users := r.db.users, txs := r.db.txs, nextTxId := db.nextTxId + 1)
    ensures CanWithdraw(db, req) && payout == Accepted ==>
      exists i :: 0 <= i < |db.users| && db.users[i].id == req.userId
        && r.db.users == Credit(db.users, i, -RequestedAmount(req))
        && r.reply == Ok(200, db.users[i].balance - RequestedAmount(req))
    ensures CanWithdraw(db, req) && payout == Rejected ==> r.db.users == db.users && r.reply == Err(400, PayoutRejected)
    ensures CanWithdraw(db, req) && payout == Unreachable ==> r.db.users == db.users && r.reply == Err(503, PayoutUnreachable)
  {
    var amount := RequestedAmount(req);
    match UserById(db.users, req.userId)
    case None => Handled(Err(400, InsufficientFundsOrInvalidUser), db)
    case Some(i) =>
      if db.users[i].balance < amount || amount <= 0 then Handled(Err(400, InsufficientFundsOrInvalidUser), db)
      else
        // The row is written as pending and then marked with the payout's
        // outcome; only the marked row outlives the request.
        var status := if payout == Accepted then Completed else Failed;
        var t := Transaction(db.nextTxId, db.users[i].id, WithdrawTx, amount, status, Some(withdrawId));
        var db3 := Materialize(db, defaults).(txs := db.txs + [t], nextTxId := db.nextTxId + 1);
        match payout
        case Accepted =>
          var db4 := db3.(users := Credit(db3.users, i, -amount));
          Handled(Ok(200, db4.users[i].balance), db4)
        case Rejected => Handled(Err(400, PayoutRejected), db3)
        case Unreachable => Handled(Err(503, PayoutUnreachable), db3)
  }

  /** With a fresh withdrawal id, exactly one ledger row carries it afterwards:
      the row this withdrawal wrote. */
  lemma WithdrawIdUnique(db: Db, defaults: SiteSettings, req: WithdrawRequest, withdrawId: string, payout: PayoutOutcome)
    requires CanWithdraw(db, req)
    requires forall k :: 0 <= k < |db.txs| ==> db.txs[k].externalId != Some(withdrawId)
    ensures var r := Withdraw(db, defaults, req, withdrawId, payout);
      forall k :: 0 <= k < |r.db.txs| ==> (r.db.txs[k].externalId == Some(withdrawId) <==> k == |db.txs|)
  {
    var r := Withdraw(db, defaults, req, withdrawId, payout);
    assert r.db.txs[..|db.txs|] == db.txs;
    forall k | 0 <= k < |db.txs| ensures r.db.txs[k] == db.txs[k] {
      assert r.db.txs[k] == r.db.txs[..|db.txs|][k];
    }
  }

  lemma WithdrawKeepsInv(db: Db, defaults: SiteSettings, req: WithdrawRequest, withdrawId: string, payout: PayoutOutcome)
    requires Inv(db)
    ensures Inv(Withdraw(db, defaults, req, withdrawId, payout).db)
  {
    var r := Withdraw(db, defaults, req, withdrawId, payout);
    if CanWithdraw(db, req) {
      var i := UserById(db.users, req.userId).value;
      var t := r.db.txs[|db.txs|];
      assert r.db.txs == db.txs + [t];
      assert r.db.users == Credit(db.users, i, Signed(t, db.users[i].id)) by {
        if payout != Accepted {
          CreditZero(db.users, i, Signed(t, db.users[i].id));
        }
      }
      PostKeepsInv(db, r.db, i, t);
    }
  }

  /** With the shipped canned response no withdrawal ever moves money. */
  lemma ShippedWithdrawNeverDebits(db: Db, defaults: SiteSettings, req: WithdrawRequest, withdrawId: string)
    ensures Withdraw(db, defaults, req, withdrawId, ShippedPayout).db.users == db.users
    ensures Withdraw(db, defaults, req, withdrawId, ShippedPayout).reply.Err?
  {
  }
}

=== FILE: migration.dfy ===
/** The one-off migration that lower-cases every stored user name, skipping a
    user whose lower-case name is already taken. */
module Migration {
  import opened Wrappers
  import opened Seqs
  import opened Text
  import opened Store

  /** What happened to one user of the snapshot. */
  datatype Outcome = AlreadyLower | Renamed | Skipped

  predicate IdsDiffer(a: User, b: User) {
    a.id != b.id
  }

  predicate NamesDiffer(a: User, b: User) {
    a.username != b.username
  }

  /** Some user other than the one at `k` holds `name`. */
  ghost predicate HeldElsewhere(users: seq<User>, k: nat, name: string) {
    exists j :: 0 <= j < |users| && j != k && users[j].username == name
  }

  /** The user `orig` of the snapshot ended up as `now` in `users` at index `k`
      for the recorded reason: already lower-case and untouched; renamed to its
      lower-case form; or skipped, untouched, because another user holds that form. */
  ghost predicate Settled(orig: User, now: User, o: Outcome, users: seq<User>, k: nat) {
    match o
    case AlreadyLower => IsLower(orig.username) && now == orig
    case Renamed => !IsLower(orig.username) && now == orig.(username := Lower(orig.username))
    case Skipped => !IsLower(orig.username) && now == orig && HeldElsewhere(users, k, Lower(orig.username))
  }

  /** Some other user holds the lower-case form of user `k`'s name in the table
      as it stands at `k`'s turn: users before `k` as they were left, users
      after `k` as in the snapshot. */
  ghost predicate HeldAtTurn(users: seq<User>, cur: seq<User>, k: nat)
    requires |cur| == |users| && k < |users|
  {
    exists j :: 0 <= j < |users| && j != k && (if j < k then cur[j] else users[j]).username == Lower(users[k].username)
  }

  /** Every visited user whose name has capitals was skipped exactly when its
      lower-case form was taken at its turn, and renamed otherwise. */
  ghost predicate TurnsDecided(users: seq<User>, cur: seq<User>, log: seq<Outcome>, i: nat)
    requires i <= |users| && |cur| == |users| && |log| == i
  {
    forall k :: 0 <= k < i && !IsLower(users[k].username) ==> (log[k] == Skipped <==> HeldAtTurn(users, cur, k))
  }

  /** `update({ where: { id }, data: { username } })` on the user table. */
  function RenameById(users: seq<User>, id: int, name: string): (r: seq<User>)
    ensures |r| == |users|
    ensures forall k :: 0 <= k < |users| && users[k].id != id ==> r[k] == users[k]
    ensures forall k :: 0 <= k < |users| && users[k].id == id ==> r[k] == users[k].(username := name)
  {
    seq(|users|, k requires 0 <= k < |users| => if users[k].id == id then users[k].(username := name) else users[k])
  }

  /** The state after visiting the first `i` users of the snapshot: only
      user names have changed, and only those of visited users; each visited
      user is settled; names that were distinct are still distinct. */
  ghost predicate Progress(users: seq<User>, cur: seq<User>, log: seq<Outcome>, i: nat) {
    && i <= |users| && |cur| == |users| && |log| == i
    && (forall k :: 0 <= k < |users| ==> cur[k] == users[k].(username := cur[k].username))
    && (forall k :: i <= k < |users| ==> cur[k] == users[k])
    && (forall k :: 0 <= k < i ==> Settled(users[k], cur[k], log[k], cur, k))
    && (Pairwise(users, NamesDiffer) ==> Pairwise(cur, NamesDiffer))
    && TurnsDecided(users, cur, log, i)
  }

  /** Visits every user of the initial snapshot once, in order. `users` is the
      user table when the run starts; ids are its primary key. Returns the
      table afterwards and what happened to each user. */
  method Migrate(users: seq<User>) returns (cur: seq<User>, log: seq<Outcome>)
    requires Pairwise(users, IdsDiffer)
    ensures |cur| == |users| && |log| == |users|
    ensures forall k :: 0 <= k < |users| ==> cur[k] == users[k].(username := cur[k].username)
    ensures forall k :: 0 <= k < |users| ==> Settled(users[k], cur[k], log[k], cur, k)
    ensures forall k :: 0 <= k < |users| ==> IsLower(cur[k].username) || log[k] == Skipped
    ensures Pairwise(users, NamesDiffer) ==> Pairwise(cur, NamesDiffer)
    ensures forall k :: 0 <= k < |users| && !IsLower(users[k].username) ==>
      (log[k] == Skipped <==> HeldAtTurn(users, cur, k))
  {
    cur, log := users, [];
    var i := 0;
    while i < |users|
      invariant i <= |users| && Progress(users, cur, log, i)
    {
      var u := users[i];
      var lower := Lower(u.username);
      if u.username == lower {
        KeepStep(users, cur, log, i, AlreadyLower);
        log := log + [AlreadyLower];
      } else if UserByName(cur, lower).Some? {
        KeepStep(users, cur, log, i, Skipped);
        log := log + [Skipped];
      } else {
        var next := RenameById(cur, u.id, lower);
        RenameStep(users, cur, log, i);
        cur, log := next, log + [Renamed];
      }
      i := i + 1;
    }
    Finish(users, cur, log);
  }

  /** Once every user has been visited, the progress invariant gives the run's
      guarantees. */
  lemma Finish(users: seq<User>, cur: seq<User>, log: seq<Outcome>)
    requires Progress(users, cur, log, |users|)
    ensures |cur| == |users| && |log| == |users|
    ensures forall k :: 0 <= k < |users| ==> cur[k] == users[k].(username := cur[k].username)
    ensures forall k :: 0 <= k < |users| ==> Settled(users[k], cur[k], log[k], cur, k)
    ensures forall k :: 0 <= k < |users| ==> IsLower(cur[k].username) || log[k] == Skipped
    ensures Pairwise(users, NamesDiffer) ==> Pairwise(cur, NamesDiffer)
    ensures forall k :: 0 <= k < |users| && !IsLower(users[k].username) ==>
      (log[k] == Skipped <==> HeldAtTurn(users, cur, k))
  {
    forall k | 0 <= k < |users| ensures IsLower(cur[k].username) || log[k] == Skipped {
      assert Settled(users[k], cur[k], log[k], cur, k);
    }
  }

  /** Visiting user `i` without touching the table: it is either already
      lower-case, or its lower-case form is held by a current user. */
  lemma KeepStep(users: seq<User>, cur: seq<User>, log: seq<Outcome>, i: nat, o: Outcome)
    requires Progress(users, cur, log, i) && i < |users|
    requires o == AlreadyLower ==> users[i].username == Lower(users[i].username)
    requires o == Skipped ==> users[i].username != Lower(users[i].username) && UserByName(cur, Lower(users[i].username)).Some?
    requires o != Renamed
    ensures Progress(users, cur, log + [o], i + 1)
  {
    var log' := log + [o];
    if o == Skipped {
      var j := UserByName(cur, Lower(users[i].username)).value;
      assert cur[j].username == Lower(users[i].username);
      assert HeldElsewhere(cur, i, Lower(users[i].username));
    }
    forall k | 0 <= k < i + 1 ensures Settled(users[k], cur[k], log'[k], cur, k) {
      if k < i {
        assert log'[k] == log[k];
      }
    }
    KeepTurns(users, cur, log, i, o);
  }

  /** Leaving user `i` untouched records the right outcome for its turn. */
  lemma KeepTurns(users: seq<User>, cur: seq<User>, log: seq<Outcome>, i: nat, o: Outcome)
    requires i < |users| && |cur| == |users| && |log| == i
    requires forall k :: i <= k < |users| ==> cur[k] == users[k]
    requires TurnsDecided(users, cur, log, i)
    requires o == AlreadyLower ==> users[i].username == Lower(users[i].username)
    requires o == Skipped ==> users[i].username != Lower(users[i].username) && UserByName(cur, Lower(users[i].username)).Some?
    requires o != Renamed
    ensures TurnsDecided(users, cur, log + [o], i + 1)
  {
    var log' := log + [o];
    forall k | 0 <= k < i + 1 && !IsLower(users[k].username) ensures log'[k] == Skipped <==> HeldAtTurn(users, cur, k) {
      if k < i {
        assert log'[k] == log[k];
      } else if o == AlreadyLower {
        assert false;
      } else {
        var j := UserByName(cur, Lower(users[i].username)).value;
        assert cur[j].username == Lower(users[i].username);
        assert j != i;
        assert (if j < i then cur[j] else users[j]).username == Lower(users[i].username);
      }
    }
  }

  /** Renaming user `i` to its lower-case form, which no current user holds. */
  lemma RenameStep(users: seq<User>, cur: seq<User>, log: seq<Outcome>, i: nat)
    requires Pairwise(users, IdsDiffer)
    requires Progress(users, cur, log, i) && i < |users|
    requires users[i].username != Lower(users[i].username)
    requires UserByName(cur, Lower(users[i].username)).None?
    ensures Progress(users, RenameById(cur, users[i].id, Lower(users[i].username)), log + [Renamed], i + 1)
  {
    var lower := Lower(users[i].username);
    var next := RenameById(cur, users[i].id, lower);
    var log' := log + [Renamed];
    forall k | 0 <= k < |cur| && k != i ensures next[k] == cur[k] {
      assert IdsDiffer(users[k], users[i]) || IdsDiffer(users[i], users[k]);
    }
    forall k | 0 <= k < i ensures Settled(users[k], next[k], log'[k], next, k) {
      assert log'[k] == log[k];
      assert Settled(users[k], cur[k], log[k], cur, k);
      if log[k] == Skipped {
        var j :| 0 <= j < |cur| && j != k && cur[j].username == Lower(users[k].username);
        assert j != i;
        assert next[j] == cur[j];
      }
    }
    if Pairwise(users, NamesDiffer) {
      forall a, b | 0 <= a < b < |next| ensures NamesDiffer(next[a], next[b]) {
        if a != i && b != i {
          assert NamesDiffer(cur[a], cur[b]);
        }
      }
    }
    RenameTurns(users, cur, log, i, next);
  }

  /** Renaming user `i`, whose lower-case form no current user holds, records
      the right outcome for its turn and leaves earlier turns as decided. */
  lemma RenameTurns(users: seq<User>, cur: seq<User>, log: seq<Outcome>, i: nat, next: seq<User>)
    requires i < |users| && |cur| == |users| && |log| == i && |next| == |cur|
    requires forall k :: i <= k < |users| ==> cur[k] == users[k]
    requires forall k :: 0 <= k < |cur| && k != i ==> next[k] == cur[k]
    requires TurnsDecided(users, cur, log, i)
    requires UserByName(cur, Lower(users[i].username)).None?
    ensures TurnsDecided(users, next, log + [Renamed], i + 1)
  {
    var log' := log + [Renamed];
    forall k | 0 <= k < i + 1 && !IsLower(users[k].username) ensures log'[k] == Skipped <==> HeldAtTurn(users, next, k) {
      if k < i {
        assert log'[k] == log[k];
        assert HeldAtTurn(users, next, k) == HeldAtTurn(users, cur, k) by {
          forall j | 0 <= j < k ensures next[j] == cur[j] {
          }
        }
      } else {
        assert log'[i] == Renamed && !HeldAtTurn(users, next, i);
      }
    }
  }
}

=== FILE: seqs.dfy ===
/** Sequence helpers shared by every table of the store: the first row matching
    a condition (what a `findFirst`/`findUnique` lookup returns), the rows
    matching a condition (what survives a `deleteMany`), and pairwise
    constraints between rows (uniqueness constraints). */
module Seqs {
  import opened Wrappers

  /** Index of the first element satisfying `p`, if any. */
  function First<T>(s: seq<T>, p: T -> bool): (r: Option<nat>)
    ensures r.Some? ==> r.value < |s| && p(s[r.value])
    ensures r.Some? ==> forall j :: 0 <= j < r.value ==> !p(s[j])
    ensures r.None? <==> forall j :: 0 <= j < |s| ==> !p(s[j])
  {
    if |s| == 0 then None
    else if p(s[0]) then Some(0)
    else match First(s[1..], p)
      case None => None
      case Some(k) => Some(k + 1)
  }

  /** The elements satisfying `p`, in their original order. */
  function Filter<T(!new)>(s: seq<T>, p: T -> bool): (r: seq<T>)
    ensures |r| <= |s|
    ensures forall x :: x in r <==> x in s && p(x)
  {
    if |s| == 0 then []
    else
      var rest := Filter(s[1..], p);
      assert s == [s[0]] + s[1..];
      if p(s[0]) then [s[0]] + rest else rest
  }

  /** Overwriting position `k` keeps every other element and adds only `v`. */
  lemma UpdateMembers<T>(s: seq<T>, k: nat, v: T)
    requires k < |s|
    ensures forall x :: x in s && x != s[k] ==> x in s[k := v]
    ensures forall x :: x in s[k := v] ==> x == v || x in s
    ensures v in s[k := v]
  {
    forall x | x in s && x != s[k] ensures x in s[k := v] {
      var j :| 0 <= j < |s| && s[j] == x;
      assert s[k := v][j] == x;
    }
    assert s[k := v][k] == v;
  }

  /** Dropping at least one element makes the sequence shorter. */
  lemma {:induction false} FilterShorter<T(!new)>(s: seq<T>, p: T -> bool, k: nat)
    requires k < |s| && !p(s[k])
    ensures |Filter(s, p)| < |s|
  {
    if k > 0 {
      FilterShorter(s[1..], p, k - 1);
    }
  }

  /** Every element kept by `Filter` satisfies `p`. */
  lemma FilterSatisfies<T(!new)>(s: seq<T>, p: T -> bool)
    ensures forall k :: 0 <= k < |Filter(s, p)| ==> p(Filter(s, p)[k])
  {
    var r := Filter(s, p);
    forall k | 0 <= k < |r| ensures p(r[k]) {
      assert r[k] in r;
    }
  }

  /** Every element of `s` followed by every element of `s` after it is related by `rel`. */
  ghost predicate Pairwise<T>(s: seq<T>, rel: (T, T) -> bool) {
    forall i, j :: 0 <= i < j < |s| ==> rel(s[i], s[j])
  }

  /** Appending an element related to every existing one keeps a pairwise constraint. */
  lemma PairwiseAppend<T>(s: seq<T>, x: T, rel: (T, T) -> bool)
    requires Pairwise(s, rel)
    requires forall k :: 0 <= k < |s| ==> rel(s[k], x)
    ensures Pairwise(s + [x], rel)
  {
    var t := s + [x];
    forall i, j | 0 <= i < j < |t|
      ensures rel(t[i], t[j])
    {
      if j == |s| {
        assert t[i] == s[i];
      } else {
        assert t[i] == s[i] && t[j] == s[j];
      }
    }
  }

  /** Deleting elements keeps a pairwise constraint. */
  lemma {:induction false} PairwiseFilter<T(!new)>(s: seq<T>, p: T -> bool, rel: (T, T) -> bool)
    requires Pairwise(s, rel)
    ensures Pairwise(Filter(s, p), rel)
  {
    if |s| > 0 {
      var tail := s[1..];
      assert Pairwise(tail, rel) by {
        forall i, j | 0 <= i < j < |tail|
          ensures rel(tail[i], tail[j])
        {
          assert tail[i] == s[i + 1] && tail[j] == s[j + 1];
        }
      }
      PairwiseFilter(tail, p, rel);
      var rest := Filter(tail, p);
      if p(s[0]) {
        var r := [s[0]] + rest;
        forall i, j | 0 <= i < j < |r|
          ensures rel(r[i], r[j])
        {
          if i == 0 {
            assert r[j] in tail;
            var k :| 0 <= k < |tail| && tail[k] == r[j];
            assert s[k + 1] == r[j];
          } else {
            assert r[i] == rest[i - 1] && r[j] == rest[j - 1];
          }
        }
      }
    }
  }

  /** Lookups agree on sequences that agree on the condition at every position. */
  lemma {:induction false} FirstAgrees<T>(s: seq<T>, t: seq<T>, p: T -> bool)
    requires |s| == |t|
    requires forall k :: 0 <= k < |s| ==> p(s[k]) == p(t[k])
    ensures First(s, p) == First(t, p)
  {
    if |s| > 0 {
      FirstAgrees(s[1..], t[1..], p);
    }
  }

  /** Filtering distributes over appending one element. */
  lemma {:induction false} FilterAppend<T(!new)>(s: seq<T>, x: T, p: T -> bool)
    ensures p(x) ==> Filter(s + [x], p) == Filter(s, p) + [x]
    ensures !p(x) ==> Filter(s + [x], p) == Filter(s, p)
  {
    var t := s + [x];
    if |s| == 0 {
      assert t == [x] && t[1..] == [];
    } else {
      assert t[0] == s[0];
      assert t[1..] == s[1..] + [x];
      FilterAppend(s[1..], x, p);
    }
  }

  /** Filtering keeps a sequence whose every element passes. */
  lemma {:induction false} FilterKeepsAll<T(!new)>(s: seq<T>, p: T -> bool)
    requires forall k :: 0 <= k < |s| ==> p(s[k])
    ensures Filter(s, p) == s
  {
    if |s| > 0 {
      FilterKeepsAll(s[1..], p);
    }
  }
}

=== FILE: settings.dfy ===
/** The singleton configuration row: read with lazy creation, and partial update. */
module Settings {
  import opened Wrappers
  import opened Store

  /** Returns the settings row, creating it from the schema's `defaults` when the
      table is empty; nothing but the settings row is ever touched. */
  function GetSiteSettings(db: Db, defaults: SiteSettings): (r: (SiteSettings, Db))
    ensures r.1.settings == Some(r.0)
    ensures r.1 == db.(settings := r.1.settings)
    ensures db.settings.Some? ==> r.0 == db.settings.value
    ensures db.settings.None? ==> r.0 == defaults
  {
    match db.settings
    case Some(s) => (s, db)
    case None => (defaults, db.(settings := Some(defaults)))
  }

  /** The store after a settings read: identical, except that the row now exists. */
  function Materialize(db: Db, defaults: SiteSettings): Db {
    GetSiteSettings(db, defaults).1
  }

  /** The settings a handler sees: the stored row, or the defaults it creates. */
  function Current(db: Db, defaults: SiteSettings): SiteSettings {
    GetSiteSettings(db, defaults).0
  }

  /** Reading twice is reading once: the second read finds the row the first created. */
  lemma GetSiteSettingsIdempotent(db: Db, defaults: SiteSettings)
    ensures GetSiteSettings(Materialize(db, defaults), defaults) == GetSiteSettings(db, defaults)
    ensures Materialize(Materialize(db, defaults), defaults) == Materialize(db, defaults)
  {
  }

  /** The fields present in an update request; absent ones are left as they are. */
  datatype SettingsPatch = SettingsPatch(
    entryFee: Option<int>, apiKey: Option<string>, withdrawUrl: Option<string>, currentWeek: Option<int>)

  /** GET /api/admin/settings. */
  function ReadSettings(db: Db, defaults: SiteSettings): (r: Handled<SiteSettings>)
    ensures r.reply.Ok? && r.reply.code == 200
    ensures r.db == Materialize(db, defaults) && r.db.settings == Some(r.reply.value)
  {
    var (s, db1) := GetSiteSettings(db, defaults);
    Handled(Ok(200, s), db1)
  }

  /** POST /api/admin/settings. */
  function UpdateSettings(db: Db, defaults: SiteSettings, patch: SettingsPatch): (r: Handled<SiteSettings>)
    ensures r.reply.Ok? && r.reply.code == 200
    ensures r.db.settings == Some(r.reply.value)
    ensures r.db == db.(settings := r.db.settings)
    ensures var cur := Current(db, defaults);
            var upd := r.reply.value;
            && upd.entryFee == patch.entryFee.GetOr(cur.entryFee)
            && upd.apiKey == patch.apiKey.GetOr(cur.apiKey)
            && upd.withdrawUrl == patch.withdrawUrl.GetOr(cur.withdrawUrl)
            && upd.currentWeek == patch.currentWeek.GetOr(cur.currentWeek)
  {
    var (cur, db1) := GetSiteSettings(db, defaults);
    var upd := SiteSettings(
      patch.entryFee.GetOr(cur.entryFee),
      patch.apiKey.GetOr(cur.apiKey),
      patch.withdrawUrl.GetOr(cur.withdrawUrl),
      patch.currentWeek.GetOr(cur.currentWeek));
    Handled(Ok(200, upd), db1.(settings := Some(upd)))
  }

  /** An update that names no field changes nothing but the row's creation. */
  lemma EmptyPatchOnlyMaterializes(db: Db, defaults: SiteSettings)
    ensures UpdateSettings(db, defaults, SettingsPatch(None, None, None, None)).db == Materialize(db, defaults)
  {
  }

  /** Applying the same partial update twice is the same as applying it once. */
  lemma UpdateIdempotent(db: Db, defaults: SiteSettings, patch: SettingsPatch)
    ensures var once := UpdateSettings(db, defaults, patch);
            UpdateSettings(once.db, defaults, patch) == once
  {
  }

  /** Creating the settings row touches no table the ledger invariant reads. */
  lemma MaterializeKeepsInv(db: Db, defaults: SiteSettings)
    requires Inv(db)
    ensures Inv(Materialize(db, defaults))
  {
  }

  /** A settings update keeps the ledger invariant. */
  lemma UpdateKeepsInv(db: Db, defaults: SiteSettings, patch: SettingsPatch)
    requires Inv(db)
    ensures Inv(UpdateSettings(db, defaults, patch).db)
  {
  }
}

=== FILE: sorting.dfy ===
/** Ordering rows by a numeric column, largest first (`orderBy: { column: 'desc' }`). */
module Sorting {

  ghost predicate SortedDesc<T>(s: seq<T>, key: T -> int) {
    forall i, j :: 0 <= i < j < |s| ==> key(s[i]) >= key(s[j])
  }

  /** Places `x` into an already sorted sequence. */
  function Insert<T>(x: T, s: seq<T>, key: T -> int): (r: seq<T>)
    requires SortedDesc(s, key)
    ensures SortedDesc(r, key)
    ensures multiset(r) == multiset(s) + multiset{x}
    ensures |r| == |s| + 1
    ensures forall k :: 0 <= k < |r| ==> r[k] == x || r[k] in s
  {
    if |s| == 0 then [x]
    else if key(x) >= key(s[0]) then
      ConsSorted(x, s, key);
      [x] + s
    else
      var rest := Insert(x, s[1..], key);
      assert s == [s[0]] + s[1..];
      assert forall k :: 0 <= k < |rest| ==> key(rest[k]) <= key(s[0]);
      ConsSorted(s[0], rest, key);
      [s[0]] + rest
  }

  /** A head no smaller than every element keeps a sorted tail sorted. */
  lemma ConsSorted<T>(y: T, s: seq<T>, key: T -> int)
    requires SortedDesc(s, key)
    requires forall k :: 0 <= k < |s| ==> key(s[k]) <= key(y)
    ensures SortedDesc([y] + s, key)
  {
    var r := [y] + s;
    forall i, j | 0 <= i < j < |r| ensures key(r[i]) >= key(r[j]) {
      assert r[j] == s[j - 1];
      if i > 0 { assert r[i] == s[i - 1]; }
    }
  }

  /** A sorted permutation of `s`. */
  function SortDesc<T>(s: seq<T>, key: T -> int): (r: seq<T>)
    ensures SortedDesc(r, key)
    ensures multiset(r) == multiset(s)
  {
    if |s| == 0 then []
    else
      assert s == [s[0]] + s[1..];
      Insert(s[0], SortDesc(s[1..], key), key)
  }
}

=== FILE: staff.dfy ===
/** The staff panel's access check, run in the browser: the stored user name
    is looked up through the user endpoint, and access is granted when one of
    the profile's roles carries the magazine permission or a staff-like name. */
module StaffAccess {
  import opened Wrappers
  import opened Text
  import opened Store
  import Ledger

  /** A role as the client sees it; `permissions` is the decoded permission
      list, `None` when the stored text is not a JSON array. Absent or empty
      text decodes as the empty list. */
  datatype Role = Role(name: string, permissions: Option<seq<string>>)

  /** What the profile request produced: the request or its decoding threw,
      the body carried an `error` field, or a profile with its optional roles. */
  datatype Lookup = Threw | ErrorBody | Profile(roles: Option<seq<Role>>)

  /** The outcome of the check, with the user names that were looked up. */
  datatype Decision = Decision(authorized: bool, lookups: seq<string>)

  const Permission: string := "manage_magazine"

  /** Role names that grant access, compared after lower-casing; the second is
      the Russian for "staff". */
  const StaffNames: seq<string> :=
    ["staff", "\U{043F}\U{0435}\U{0440}\U{0441}\U{043E}\U{043D}\U{0430}\U{043B}", "admin", "owner"]

  /** One role grants access: its permissions include the magazine permission,
      or, whether or not they decode, its lower-cased name is a staff name. */
  predicate Grants(r: Role) {
    (r.permissions.Some? && Permission in r.permissions.value) || Lower(r.name) in StaffNames
  }

  /** `roles.some(...)`, scanning left to right. */
  function AnyGrants(roles: seq<Role>): bool {
    if |roles| == 0 then false
    else Grants(roles[0]) || AnyGrants(roles[1..])
  }

  /** The scan answers yes exactly when some role grants access. */
  lemma {:induction false} AnyGrantsIff(roles: seq<Role>)
    ensures AnyGrants(roles) <==> exists k :: 0 <= k < |roles| && Grants(roles[k])
  {
    if |roles| > 0 {
      AnyGrantsIff(roles[1..]);
      if !Grants(roles[0]) && (exists k :: 0 <= k < |roles| && Grants(roles[k])) {
        var k :| 0 <= k < |roles| && Grants(roles[k]);
        assert roles[1..][k - 1] == roles[k];
      }
    }
  }

  /** `checkAuth`: `stored` is the user name kept in local storage and `lookup`
      the profile request. Any failure denies access. */
  function CheckAuth(stored: Option<string>, lookup: string -> Lookup): (r: Decision)
    ensures Blank(stored) ==> r == Decision(false, [])
    ensures !Blank(stored) ==> r.lookups == [stored.value]
    ensures !Blank(stored) && !lookup(stored.value).Profile? ==> !r.authorized
    ensures r.authorized <==>
      && !Blank(stored)
      && lookup(stored.value).Profile?
      && lookup(stored.value).roles.Some?
      && exists k :: 0 <= k < |lookup(stored.value).roles.value| && Grants(lookup(stored.value).roles.value[k])
  {
    if Blank(stored) then Decision(false, [])
    else
      var name := stored.value;
      match lookup(name)
      case Threw => Decision(false, [name])
      case ErrorBody => Decision(false, [name])
      case Profile(None) => Decision(false, [name])
      case Profile(Some(roles)) =>
        AnyGrantsIff(roles);
        Decision(AnyGrants(roles), [name])
  }

  /** A user without roles, or with an empty role list, is denied. */
  lemma NoRolesDenied(stored: Option<string>, lookup: string -> Lookup)
    requires !Blank(stored)
    requires lookup(stored.value) == Profile(None) || lookup(stored.value) == Profile(Some([]))
    ensures !CheckAuth(stored, lookup).authorized
  {
  }

  /** The profile request as answered by this application's own server: a
      successful reply carries id, name, code and balance, but no roles. */
  function ServerLookup(db: Db): string -> Lookup {
    (name: string) => if Ledger.GetUser(db, name).Ok? then Profile(None) else ErrorBody
  }

  /** Against this server the check never grants access, whatever the store holds. */
  lemma ServerNeverGrants(db: Db, stored: Option<string>)
    ensures !CheckAuth(stored, ServerLookup(db)).authorized
  {
  }

  /** Names are compared case-insensitively, and a name alone suffices even
      when the permissions do not decode: a role written "ПЕРСОНАЛ" in capitals
      with undecodable permissions grants access, one called "editor" does not. */
  lemma CapitalisedStaffNameGrants()
    ensures Grants(Role("\U{041F}\U{0415}\U{0420}\U{0421}\U{041E}\U{041D}\U{0410}\U{041B}", None))
    ensures !Grants(Role("editor", None))
  {
    var upper := "\U{041F}\U{0415}\U{0420}\U{0421}\U{041E}\U{041D}\U{0410}\U{041B}";
    var lower := StaffNames[1];
    forall i | 0 <= i < |upper| ensures Lower(upper)[i] == lower[i] {
      LowerAt(upper, i);
    }
    assert Lower(upper) == lower;
    assert IsLower("editor");
  }
}

=== FILE: store.dfy ===
/** The application's relational store, abstracted as an immutable value.
    Each table is a sequence of rows in insertion order; autoincrement keys are
    drawn from a counter per table. Handlers are pure transitions
    `(request, Db) -> Handled(reply, Db)`; a database transaction is one step. */
module Store {
  import opened Wrappers
  import opened Seqs

  datatype User = User(id: int, username: string, fpCode: string, balance: int)

  datatype TxType = DepositTx | WithdrawTx | EntryFeeTx | RefundTx
  datatype TxStatus = Pending | Completed | Failed

  /** A ledger row; `externalId` correlates a withdrawal with the payout service. */
  datatype Transaction = Transaction(
    id: int, userId: int, txType: TxType, amount: int, status: TxStatus, externalId: Option<string>)

  /** A contest entry; `image` is the stored upload's reference, kept opaque. */
  datatype Entry = Entry(
    id: int, userId: int, image: string, description: string, weekNumber: int, createdAt: int)

  datatype Vote = Vote(id: int, voterId: int, entryId: int, weekNumber: int)

  datatype EditionStatus = Draft | Published

  /** A magazine edition; `content` is the serialised JSON body, kept opaque. */
  datatype Edition = Edition(
    id: string, editionNumber: int, status: EditionStatus, content: string,
    createdAt: int, publishedAt: Option<int>)

  datatype SiteSettings = SiteSettings(entryFee: int, apiKey: string, withdrawUrl: string, currentWeek: int)

  /** The whole store; `settings` is the singleton row, absent until first read. */
  datatype Db = Db(
    settings: Option<SiteSettings>,
    users: seq<User>,
    txs: seq<Transaction>,
    entries: seq<Entry>,
    votes: seq<Vote>,
    editions: seq<Edition>,
    nextUserId: int,
    nextTxId: int,
    nextEntryId: int,
    nextVoteId: int)

  /** Why a request was refused; each carries the HTTP status the handler sends. */
  datatype Reason =
    | UsernameRequired | UsernameTaken | UserNotFound
    | Unauthorized | MissingAmountOrCode | UnknownCode
    | InsufficientFundsOrInvalidUser | PayoutRejected | PayoutUnreachable
    | MissingUserOrImage | InsufficientBalance(fee: int)
    | MissingEntryOrUser | EntryNotFound | NotOwner | CancelFailed
    | MissingVoterOrEntry | AlreadyVoted
    | NoPublishedEdition | SaveFailed | PublishFailed | DeleteFailed
    | InvalidAmount

  datatype Reply<+T> = Ok(code: int, value: T) | Err(code: int, reason: Reason)

  /** A handler's reply together with the store it leaves behind. */
  datatype Handled<+T> = Handled(reply: Reply<T>, db: Db)

  /** A string request field JavaScript treats as false: absent or empty. */
  predicate Blank(s: Option<string>) {
    s.None? || s.value == ""
  }

  /** A numeric request field JavaScript treats as false: absent or zero. */
  predicate Falsy(n: Option<int>) {
    n.None? || n.value == 0
  }

  // ---- row conditions, named so that every mention denotes the same predicate ----

  function UserWithId(id: int): User -> bool {
    (u: User) => u.id == id
  }

  function UserNamed(name: string): User -> bool {
    (u: User) => u.username == name
  }

  function UserWithCode(code: string): User -> bool {
    (u: User) => u.fpCode == code
  }

  function EntryWithId(id: int): Entry -> bool {
    (e: Entry) => e.id == id
  }

  function EntryOtherThan(id: int): Entry -> bool {
    (e: Entry) => e.id != id
  }

  function EntryOfWeek(w: int): Entry -> bool {
    (e: Entry) => e.weekNumber == w
  }

  function VoteOn(entryId: int): Vote -> bool {
    (v: Vote) => v.entryId == entryId
  }

  function VoteNotOn(entryId: int): Vote -> bool {
    (v: Vote) => v.entryId != entryId
  }

  function VoteInSlot(voter: int, week: int): Vote -> bool {
    (v: Vote) => v.voterId == voter && v.weekNumber == week
  }

  function EditionWithId(id: string): Edition -> bool {
    (e: Edition) => e.id == id
  }

  function EditionOtherThan(id: string): Edition -> bool {
    (e: Edition) => e.id != id
  }

  // ---- lookups (first matching row) ----

  function UserById(users: seq<User>, id: int): Option<nat> {
    First(users, UserWithId(id))
  }

  function UserByName(users: seq<User>, name: string): Option<nat> {
    First(users, UserNamed(name))
  }

  function UserByCode(users: seq<User>, code: string): Option<nat> {
    First(users, UserWithCode(code))
  }

  function EntryById(entries: seq<Entry>, id: int): Option<nat> {
    First(entries, EntryWithId(id))
  }

  function EditionById(editions: seq<Edition>, id: string): Option<nat> {
    First(editions, EditionWithId(id))
  }

  // ---- uniqueness constraints of the schema ----

  predicate DistinctUsers(a: User, b: User) {
    a.id != b.id && a.username != b.username && a.fpCode != b.fpCode
  }

  predicate DistinctEntries(a: Entry, b: Entry) {
    a.id != b.id
  }

  predicate DistinctEditions(a: Edition, b: Edition) {
    a.id != b.id
  }

  /** Two votes do not occupy the same (voter, week) slot. */
  predicate DifferentSlot(a: Vote, b: Vote) {
    a.voterId != b.voterId || a.weekNumber != b.weekNumber
  }

  predicate NotBothPublished(a: Edition, b: Edition) {
    a.status == Draft || b.status == Draft
  }

  /** Keys are unique and below their table's counter. */
  ghost predicate Wf(db: Db) {
    && Pairwise(db.users, DistinctUsers)
    && (forall k :: 0 <= k < |db.users| ==> db.users[k].id < db.nextUserId)
    && Pairwise(db.entries, DistinctEntries)
    && (forall k :: 0 <= k < |db.entries| ==> db.entries[k].id < db.nextEntryId)
    && Pairwise(db.editions, DistinctEditions)
  }

  /** At most one vote per (voter, week). */
  ghost predicate OneVotePerWeek(votes: seq<Vote>) {
    Pairwise(votes, DifferentSlot)
  }

  ghost predicate AtMostOnePublished(editions: seq<Edition>) {
    Pairwise(editions, NotBothPublished)
  }

  // ---- the ledger ----

  /** What a transaction contributes to `uid`'s balance: completed credits add,
      completed debits subtract, pending and failed rows count for nothing. */
  function Signed(t: Transaction, uid: int): int {
    if t.userId != uid || t.status != Completed then 0
    else if t.txType == DepositTx || t.txType == RefundTx then t.amount
    else -t.amount
  }

  /** Net of all of `uid`'s transactions in the log. */
  function Net(txs: seq<Transaction>, uid: int): int
    decreases |txs|
  {
    if |txs| == 0 then 0 else Net(txs[..|txs| - 1], uid) + Signed(txs[|txs| - 1], uid)
  }

  /** Every user's balance is the net of that user's completed transactions. */
  ghost predicate BalancedRows(users: seq<User>, txs: seq<Transaction>) {
    forall k :: 0 <= k < |users| ==> users[k].balance == Net(txs, users[k].id)
  }

  /** The ledger accounts for every balance, and every logged row names a user id already issued. */
  ghost predicate Balanced(db: Db) {
    && BalancedRows(db.users, db.txs)
    && (forall k :: 0 <= k < |db.txs| ==> db.txs[k].userId < db.nextUserId)
  }

  /** The invariant every handler keeps. */
  ghost predicate Inv(db: Db) {
    Wf(db) && Balanced(db) && OneVotePerWeek(db.votes)
  }

  /** `users` with the balance of row `i` moved by `delta`. */
  function Credit(users: seq<User>, i: nat, delta: int): (r: seq<User>)
    requires i < |users|
    ensures |r| == |users| && r[i].balance == users[i].balance + delta
    ensures forall k :: 0 <= k < |r| && k != i ==> r[k] == users[k]
    ensures forall k :: 0 <= k < |r| ==> r[k] == users[k].(balance := r[k].balance)
  {
    users[i := users[i].(balance := users[i].balance + delta)]
  }

  /** A charge of `fee` followed by a credit of `x` on the same row moves it by `x - fee`. */
  lemma DebitThenCredit(u0: seq<User>, u1: seq<User>, i: nat, fee: int, x: int)
    requires i < |u0| && u1 == Credit(u0, i, -fee)
    ensures Credit(u1, i, x) == Credit(u0, i, x - fee)
  {
    CreditTwice(u0, i, -fee, x);
  }

  /** A zero move changes nothing. */
  lemma CreditZero(users: seq<User>, i: nat, d: int)
    requires i < |users| && d == 0
    ensures Credit(users, i, d) == users
  {
  }

  /** Two balance moves on one row add up. */
  lemma CreditTwice(users: seq<User>, i: nat, d1: int, d2: int)
    requires i < |users|
    ensures Credit(Credit(users, i, d1), i, d2) == Credit(users, i, d1 + d2)
  {
    var a, b := Credit(Credit(users, i, d1), i, d2), Credit(users, i, d1 + d2);
    assert a[i] == b[i];
    assert forall k :: 0 <= k < |a| ==> a[k] == b[k];
  }

  /** Under unique ids, looking a row's id up finds that very row. */
  lemma UserByIdFindsRow(users: seq<User>, i: nat)
    requires Pairwise(users, DistinctUsers) && i < |users|
    ensures UserById(users, users[i].id) == Some(i)
  {
    assert UserWithId(users[i].id)(users[i]);
  }

  lemma NetAppend(txs: seq<Transaction>, t: Transaction, uid: int)
    ensures Net(txs + [t], uid) == Net(txs, uid) + Signed(t, uid)
  {
    assert (txs + [t])[..|txs|] == txs;
  }

  lemma {:induction false} NetOfStranger(txs: seq<Transaction>, uid: int)
    requires forall k :: 0 <= k < |txs| ==> txs[k].userId != uid
    ensures Net(txs, uid) == 0
  {
    if |txs| > 0 {
      NetOfStranger(txs[..|txs| - 1], uid);
    }
  }

  /** Changing only balances keeps the user uniqueness constraints. */
  lemma SameKeysDistinct(users: seq<User>, users': seq<User>)
    requires Pairwise(users, DistinctUsers)
    requires |users'| == |users|
    requires forall k :: 0 <= k < |users| ==> users'[k] == users[k].(balance := users'[k].balance)
    ensures Pairwise(users', DistinctUsers)
  {
    forall i, j | 0 <= i < j < |users'|
      ensures DistinctUsers(users'[i], users'[j])
    {
      assert DistinctUsers(users[i], users[j]);
    }
  }

  /** Posting a transaction for user row `i` and moving that row's balance by the
      transaction's signed amount keeps every balance accounted for. */
  lemma PostKeepsBalanced(users: seq<User>, txs: seq<Transaction>, i: nat, t: Transaction)
    requires Pairwise(users, DistinctUsers) && BalancedRows(users, txs)
    requires i < |users| && t.userId == users[i].id
    ensures BalancedRows(Credit(users, i, Signed(t, users[i].id)), txs + [t])
    ensures Pairwise(Credit(users, i, Signed(t, users[i].id)), DistinctUsers)
  {
    var users' := Credit(users, i, Signed(t, users[i].id));
    forall k | 0 <= k < |users'|
      ensures users'[k].balance == Net(txs + [t], users'[k].id)
    {
      NetAppend(txs, t, users[k].id);
      if k != i {
        assert DistinctUsers(users[if k < i then k else i], users[if k < i then i else k]);
      }
    }
    SameKeysDistinct(users, users');
  }

  /** Posting one transaction for row `i` together with its balance move keeps
      the invariant, whatever else the handler touched outside the four tables. */
  lemma PostKeepsInv(db: Db, db': Db, i: nat, t: Transaction)
    requires Inv(db) && i < |db.users| && t.userId == db.users[i].id
    requires db'.users == Credit(db.users, i, Signed(t, db.users[i].id)) && db'.txs == db.txs + [t]
    requires db'.entries == db.entries && db'.votes == db.votes && db'.editions == db.editions
    requires db'.nextUserId == db.nextUserId && db'.nextEntryId == db.nextEntryId
    ensures Inv(db')
  {
    PostKeepsBalanced(db.users, db.txs, i, t);
  }
}

=== FILE: text.dfy ===
/** Lower-casing of user names and role names (`String.prototype.toLowerCase`),
    restricted to the Latin and Cyrillic capitals this application meets. */
module Text {

  /** A capital letter: Latin A-Z, Cyrillic U+0410..U+042F, or Cyrillic U+0400..U+040F. */
  predicate IsUpperChar(c: char) {
    ('A' <= c <= 'Z') || ('\U{0410}' <= c <= '\U{042F}') || ('\U{0400}' <= c <= '\U{040F}')
  }

  /** A small letter that is the lower-case form of one of the capitals above:
      Latin a-z, Cyrillic U+0430..U+044F, or Cyrillic U+0450..U+045F. */
  predicate IsSmallChar(c: char) {
    ('a' <= c <= 'z') || ('\U{0430}' <= c <= '\U{044F}') || ('\U{0450}' <= c <= '\U{045F}')
  }

  /** A capital becomes its small letter; every other character is kept. */
  function LowerChar(c: char): (d: char)
    ensures !IsUpperChar(d)
    ensures !IsUpperChar(c) ==> d == c
    ensures IsUpperChar(c) ==> IsSmallChar(d)
  {
    if 'A' <= c <= 'Z' then (c as int + 0x20) as char
    else if '\U{0410}' <= c <= '\U{042F}' then (c as int + 0x20) as char
    else if '\U{0400}' <= c <= '\U{040F}' then (c as int + 0x50) as char
    else c
  }

  /** The inverse mapping, from a small letter back to its capital. */
  function UpperChar(c: char): (d: char)
    ensures IsSmallChar(c) ==> IsUpperChar(d)
    ensures !IsSmallChar(c) ==> d == c
  {
    if 'a' <= c <= 'z' then (c as int - 0x20) as char
    else if '\U{0430}' <= c <= '\U{044F}' then (c as int - 0x20) as char
    else if '\U{0450}' <= c <= '\U{045F}' then (c as int - 0x50) as char
    else c
  }

  /** Lower-casing a capital loses nothing: upper-casing the result gives it back,
      so two different capitals never share a small letter. */
  lemma LowerCharRoundTrip(c: char)
    ensures IsUpperChar(c) ==> UpperChar(LowerChar(c)) == c
    ensures IsSmallChar(c) ==> LowerChar(UpperChar(c)) == c
  {
  }

  /** No capital letter occurs in `s`. */
  predicate IsLower(s: string) {
    forall i :: 0 <= i < |s| ==> !IsUpperChar(s[i])
  }

  /** `toLowerCase`: every capital is replaced by its small letter, in place,
      and every other character is kept. */
  function Lower(s: string): (r: string)
    ensures |r| == |s|
    ensures IsLower(r)
    ensures r == s <==> IsLower(s)
    ensures forall i :: 0 <= i < |s| && !IsUpperChar(s[i]) ==> r[i] == s[i]
    ensures forall i :: 0 <= i < |s| && IsUpperChar(s[i]) ==> IsSmallChar(r[i]) && UpperChar(r[i]) == s[i]
  {
    var r := seq(|s|, i requires 0 <= i < |s| => LowerChar(s[i]));
    assert IsLower(s) ==> r == s;
    assert r == s ==> IsLower(s) by {
      if r == s {
        forall i | 0 <= i < |s| ensures !IsUpperChar(s[i]) {
          assert r[i] == LowerChar(s[i]);
        }
      }
    }
    forall i | 0 <= i < |s| && IsUpperChar(s[i]) ensures UpperChar(r[i]) == s[i] {
      LowerCharRoundTrip(s[i]);
    }
    r
  }

  /** Position `i` of the lower-cased string is the lower-cased character. */
  lemma LowerAt(s: string, i: nat)
    requires i < |s|
    ensures Lower(s)[i] == LowerChar(s[i])
  {
  }
}

=== FILE: wrappers.dfy ===
/** Optional values: a request field that may be absent, a lookup that may find nothing. */
module Wrappers {

  datatype Option<+T> = None | Some(value: T) {

    /** The wrapped value, or `default` when there is none. */
    function GetOr(default: T): T {
      match this
      case Some(v) => v
      case None => default
    }
  }
}
